=== FILE: README.md ===
# A Dafny model of the Relink mod loader's data manager

The data manager of `gbfrelink.utility.manager` lets mods replace files of
Granblue Fantasy Relink without touching the game's archives. The game finds
every file through the index `data.i`. That index holds two sorted key lists:

- archived files, each with a chunk locator;
- external files, each with a size, which the game reads loose from its
  `data` directory.

A key is the big-endian reading of the xxHash64 digest of the file's
normalised game path (backslashes turned into slashes, then lower case).

The manager keeps two copies of the index:

- the shipped index, which archive reads go through;
- an overlay copy. Registering a mod file moves its key out of the archive
  list and into the external list.

Each registered file gets a redirect from its game path to the file that
serves it. Some file types are converted first:

- `.json` is converted to MessagePack `.msg`;
- `.xml` (and `.bxm.xml`) is converted to binary XML `.bxm`;
- an outdated `.minfo` gets its magic rewritten.

A cache registry remembers when each converted output was made, so an
unchanged source is not converted again. The registry is read from and
written to a small text file, and only entries used in the current session
are written back.

The model has these modules:

- `IndexModel`: the index and its overlay edits (register an external file,
  remove an archived one), with a batch of registrations applied in order.
- `Archive`: reading one archived file. This covers binary search over the
  archive keys, the empty-file sentinel, lazily opened archive streams, LZ4
  chunks and the slice of the chunk that is the file.
- `CacheRegistry`, `CacheFile`, `CacheRoundTrip`: the registry as nested
  dictionaries kept in insertion order, its line format, and the round trip
  of writing it out and reading it back.
- `ModProcessing`: what `ProcessFile` and its three converters do to one file.
  They decide the game path it is registered under, the file that serves it,
  the redirect rule, and what the cache records.
- `DataManager`: registering all files of a mod, including the ownership loop
  where the last writer wins. It also covers the existence query, archive and
  modded reads, and adding a single external file.
- `PathHash`, `Paths`, `Text`, `SortedSeq`, `DateTimes`, `Wrappers`: the parts
  of .NET the core relies on, each stated with its own contract:
  - path normalisation and the key;
  - `Path.GetExtension`, `Path.ChangeExtension` and `Path.Combine`;
  - `string.Replace` and `string.Split`;
  - line reading and writing;
  - `List<T>.BinarySearch`, sorted insertion and `RemoveAt`;
  - the `dd/MM/yyyy HH:mm:ss` date form.

Everything the loader observes of the machine is an input to the model:

- The `Env` datatype holds:
  - which files exist, their last-write times, sizes and readable contents;
  - whether converting a source succeeds;
  - what a `.minfo` parses to, with no result when reading or parsing it
    throws, or when an outdated one's upgraded copy fails to serialise or
    write (the same `try` covers all of these, and its `catch` serves the
    source unchanged).
- The xxHash64 digest and the LZ4 block decoder are function parameters.
- The archive files on disk are a map from archive number to bytes.

Nothing reads a disk, writes a file or logs.

Where the code and its documentation disagree, the model follows the code:

- The cache is keyed by the game path handed to the converter, not by the
  output path. `ConvertToMsg` and `ConvertToBxm` both look up and record
  `gamePath` (DataManager.cs lines 455, 470, 492 and 510).
- `ConvertToBxm` writes its output under the original game path (line 489)
  but registers the file under the `.bxm` game path (line 488).
- `AddOrUpdateExternalFile` registers the slash-normalised game path it was
  given, with the given size. It then runs `ProcessFile` on the written file
  and drops the registration that comes back, so no owner is recorded and a
  converted path is not registered in the index (lines 175-176 and 196-197).
- Owners are keyed by the game path as registered, with its case kept. Reads
  look up the lower-cased name (lines 281-283). A mod file registered under a
  path with an upper-case letter is therefore never served by name from its
  owner. The read goes to the archive instead (`UpperCaseOwnerIsNotFound`).

## Model

| member | source | states |
|---|---|---|
| PathHash.NormalizePath | gbfrelink.utility.manager/Utils.cs:13-16 | the result is as long as the input, holds no backslash and no upper-case ASCII letter, and puts `/` where the input had `\` |
| PathHash.NormalizePathSameIff | gbfrelink.utility.manager/Utils.cs:15 | two paths normalise to the same string exactly when they differ only in ASCII letter case and separator style |
| PathHash.NormalizePathIdempotent | gbfrelink.utility.manager/Utils.cs:15 | normalising an already normalised path changes nothing |
| PathHash.AsciiBytes | gbfrelink.utility.manager/Utils.cs:22 | ASCII encoding yields one byte per character |
| PathHash.BigEndianRoundTrip | gbfrelink.utility.manager/Utils.cs:23 | decoding the n-byte big-endian encoding of a number below 256^n gives the number back |
| PathHash.BigEndianBytesOfValue | gbfrelink.utility.manager/Utils.cs:23 | encoding the big-endian value of a byte sequence gives the bytes back |
| PathHash.ReadUInt64BigEndian | gbfrelink.utility.manager/Utils.cs:23 | the key's top byte is the digest's first byte, and the key's eight-byte big-endian encoding is the digest |
| PathHash.ReadUInt64BigEndianInjective | gbfrelink.utility.manager/Utils.cs:23 | two digests that give the same key are the same digest |
| PathHash.XXHash64PathIgnoresCaseAndSeparators | gbfrelink.utility.manager/Utils.cs:18-24 | paths that differ only in case or separator style get the same key |
| PathHash.XXHash64PathOfNormalized | gbfrelink.utility.manager/Utils.cs:20 | the key of the normalised path is the key of the path |
| SortedSeq.BinarySearch | gbfrelink.utility.manager/DataManager.cs:535 | the result is non-negative exactly when the key is present; it is then the key's position, and otherwise the complement of the key's insertion point |
| SortedSeq.AddSorted | gbfrelink.utility.manager/DataManager.cs:538 | the key is inserted at its insertion point, the list stays strictly sorted, and its elements are the old ones plus the key |
| SortedSeq.InsertAt | gbfrelink.utility.manager/DataManager.cs:541 | the parallel size list gets the value at the given position and shifts everything after it by one |
| SortedSeq.RemoveAt | gbfrelink.utility.manager/DataManager.cs:557-558 | removal shortens the list by one and shifts everything after the position down |
| SortedSeq.InsertAtInsertionPoint | gbfrelink.utility.manager/DataManager.cs:538 | inserting at the insertion point keeps a list strictly sorted and adds exactly the new element |
| SortedSeq.RemoveAtStrictlySorted | gbfrelink.utility.manager/DataManager.cs:557 | removing an element keeps a list strictly sorted and removes exactly that element |
| Text.ReplaceChar | gbfrelink.utility.manager/Utils.cs:15 | the result is as long as the input and, when the two characters differ, no occurrence of the replaced one is left |
| Text.ReplaceAllPrefix | gbfrelink.utility.manager/DataManager.cs:488 | replacing a pattern leaves a prefix alone when that prefix cannot start the pattern |
| Text.Split | gbfrelink.utility.manager/ModFileCacheRegistry.cs:76 | no part holds the separator, and joining the parts with the separator gives the string back |
| Text.SplitJoin | gbfrelink.utility.manager/ModFileCacheRegistry.cs:76 | splitting fields joined with a separator they do not contain gives the fields back |
| Text.SplitJoinLines | gbfrelink.utility.manager/ModFileCacheRegistry.cs:70-72 | reading back, line by line, single-line strings written with `WriteLine` gives the same lines |
| Paths.GetExtension | gbfrelink.utility.manager/DataManager.cs:341 | the extension is empty or a dotted suffix of the path with no further dot and no separator |
| Paths.Combine | gbfrelink.utility.manager/DataManager.cs:441 | a rooted second part replaces the first; otherwise the first part, one separator and the second part |
| Paths.ChangeExtensionShape | gbfrelink.utility.manager/DataManager.cs:448 | after the extension is changed, the path's extension is the new one |
| Paths.SwapExtension | gbfrelink.utility.manager/DataManager.cs:448 | changing the extension of `stem + ext` gives `stem + new` |
| Paths.ExtensionOfSuffix | gbfrelink.utility.manager/DataManager.cs:341 | putting anything in front of a path with an extension keeps that extension |
| Paths.CombineKeepsExtension | gbfrelink.utility.manager/DataManager.cs:441 | `Path.Combine` keeps the extension of its second part |
| DateTimes.TruncateToSeconds | gbfrelink.utility.manager/ModFileCacheRegistry.cs:49 | dropping the milliseconds gives a valid instant with no sub-second part that agrees with the input in every other field |
| DateTimes.TruncateEqualIff | gbfrelink.utility.manager/ModFileCacheRegistry.cs:49-57 | two instants are equal at seconds precision exactly when all their fields but the sub-second part agree |
| DateTimes.Format | gbfrelink.utility.manager/ModFileCacheRegistry.cs:128 | the `dd/MM/yyyy HH:mm:ss` form is 19 characters of digits and the `/`, space and `:` separators |
| DateTimes.Parse | gbfrelink.utility.manager/ModFileCacheRegistry.cs:99 | a parsed date is a valid instant at seconds precision whose formatted form is exactly the parsed text |
| DateTimes.ParseFormat | gbfrelink.utility.manager/ModFileCacheRegistry.cs:99-128 | parsing the written form of an instant gives the instant truncated to the second |
| IndexModel.ExternalSize | gbfrelink.utility.manager/DataManager.cs:251 | a key has an external size exactly when it is in the external list |
| IndexModel.ArchiveIndexer | gbfrelink.utility.manager/Archive.cs:46-50 | a key has an archive locator exactly when it is in the archive list |
| IndexModel.RemoveArchiveFileFromIndex | gbfrelink.utility.manager/DataManager.cs:552-560 | the key and its locator are removed at the same position, the key is gone and all others stay, the index is unchanged when the key was absent, and the external lists are untouched |
| IndexModel.UpsertExternal | gbfrelink.utility.manager/DataManager.cs:534-546 | a new key is inserted with its size at the same position in both lists and the flag is true; an existing key keeps the lists' shape, only its size is overwritten, and the flag is false |
| IndexModel.UpsertLookups | gbfrelink.utility.manager/DataManager.cs:534-546 | after the upsert the key's external size is the new size and every other key's is unchanged |
| IndexModel.RemoveLookups | gbfrelink.utility.manager/DataManager.cs:552-560 | after the removal every other key's archive locator and every key's external size are unchanged |
| IndexModel.RegisterExternalHash | gbfrelink.utility.manager/DataManager.cs:530-550 | the key becomes external with the given size and is no longer archived, every other key keeps its size and locator, the flag says whether the key was new, and no key is left both external and archived |
| IndexModel.RegisterExternalFileToIndex | gbfrelink.utility.manager/DataManager.cs:530-550 | the same for the key of a game path |
| IndexModel.RegisterExistingUpdatesSize | gbfrelink.utility.manager/DataManager.cs:543-546 | registering a key that is already external keeps the key list and overwrites only that key's size |
| IndexModel.RegisterTwice | gbfrelink.utility.manager/DataManager.cs:530-550 | registering the same key and size again changes nothing and reports "updated" |
| IndexModel.RegisterAll | gbfrelink.utility.manager/DataManager.cs:138-139 | applying registrations in order keeps the index well formed |
| IndexModel.RegisterAllProperties | gbfrelink.utility.manager/DataManager.cs:128-149 | after a batch of registrations, each key registered has the size it was registered with last and is no longer archived, and every other key keeps its external size and archive locator |
| IndexModel.RegisterAllKey | gbfrelink.utility.manager/DataManager.cs:128-149 | the same, for one key |
| IndexModel.RegisterKeyStep | gbfrelink.utility.manager/DataManager.cs:530-550 | one more registration moves one key's state from "as registered last" to "as registered now" |
| Archive.NewArchiveAccessor | gbfrelink.utility.manager/Archive.cs:28-41 | the accessor keeps the index it was given and has one empty stream slot per archive |
| Archive.Lz4DecodeCount | gbfrelink.utility.manager/Archive.cs:80 | the decoder reports -1 or the number of bytes it produced, which fits the destination |
| Archive.Locate | gbfrelink.utility.manager/Archive.cs:45-50 | a file has a locator exactly when its key is in the archive list, and the locator points inside the index |
| Archive.OpenStream | gbfrelink.utility.manager/Archive.cs:55-67 | once the slot is served it holds a stream, and the index and number of slots are kept |
| Archive.GetFileData | gbfrelink.utility.manager/Archive.cs:43-100 | "not found" exactly when the key is not archived; a file in a chunk comes back with exactly its recorded size; an open stream is never replaced, and a slot that changes takes the archive file's bytes |
| Archive.EmptyFileSentinel | gbfrelink.utility.manager/Archive.cs:50-52 | a file with the empty-chunk sentinel reads as no bytes and opens no stream |
| Archive.RawChunkRead | gbfrelink.utility.manager/Archive.cs:75-89 | a raw chunk's file is the slice of the archive bytes at chunk offset plus file offset, or "archive missing", whatever the decoder does |
| Archive.CompressedChunkRead | gbfrelink.utility.manager/Archive.cs:78-85 | a compressed chunk succeeds exactly when the decoder yields the whole decompressed size, and the file is then sliced from the decoded bytes |
| Archive.OpenStreamIsReused | gbfrelink.utility.manager/Archive.cs:55-67 | once every stream is open, reads no longer depend on the files on disk |
| CacheRegistry.Slashes | gbfrelink.utility.manager/ModFileCacheRegistry.cs:27 | normalising keeps the length and leaves no backslash |
| CacheRegistry.PutFile | gbfrelink.utility.manager/ModFileCacheRegistry.cs:41 | storing an entry gives the mod's dictionary updated at the entry's path and keeps the paths distinct |
| CacheRegistry.PutMod | gbfrelink.utility.manager/ModFileCacheRegistry.cs:29-33 | replacing a mod's files gives the registry dictionary updated at that mod id |
| CacheRegistry.AddEntry | gbfrelink.utility.manager/ModFileCacheRegistry.cs:25-43 | the returned entry is unused and holds the slash-normalised path and the time; the registry becomes the old one with that entry stored at (mod id, path), the mod's dictionary being created when missing |
| CacheRegistry.MarkUsed | gbfrelink.utility.manager/DataManager.cs:455-457 | an existing entry gets its used mark and nothing else changes; without an entry the registry is unchanged |
| CacheRegistry.AddUsedEntry | gbfrelink.utility.manager/DataManager.cs:369-370 | adding an entry and marking the returned entry stores a used entry at (mod id, path) |
| CacheRegistry.TryGetFileIfUpToDate | gbfrelink.utility.manager/ModFileCacheRegistry.cs:45-62 | there is an answer exactly when the mod and the slash-normalised path are present and the stored time equals the queried time with its milliseconds dropped, and the answer is the stored entry |
| CacheRegistry.AddEntryThenTryGet | gbfrelink.utility.manager/ModFileCacheRegistry.cs:25-62 | an entry added at seconds precision is up to date for a query in the same second and for no other query |
| CacheFile.WriteCache | gbfrelink.utility.manager/ModFileCacheRegistry.cs:113-133 | the written file starts with the comment header |
| CacheFile.ReadCacheLine | gbfrelink.utility.manager/ModFileCacheRegistry.cs:70-110 | reading a line keeps the registry well formed |
| CacheFile.ReadCache | gbfrelink.utility.manager/ModFileCacheRegistry.cs:64-111 | reading a file keeps the registry well formed |
| CacheFile.SplitFileLine | gbfrelink.utility.manager/ModFileCacheRegistry.cs:76 | a `file` line splits into its tag, path and date |
| CacheFile.ReadFileLine | gbfrelink.utility.manager/ModFileCacheRegistry.cs:92-106 | a `file` line with a parsable date adds its entry under the most recent mod id |
| CacheFile.ReadModIdLine | gbfrelink.utility.manager/ModFileCacheRegistry.cs:82-90 | a `mod_id` line switches the current mod id and adds nothing |
| CacheFile.ReadFileLineBadDate | gbfrelink.utility.manager/ModFileCacheRegistry.cs:99-103 | a `file` line whose date does not parse is skipped |
| CacheFile.ReadShortLines | gbfrelink.utility.manager/ModFileCacheRegistry.cs:83-97 | `mod_id` and `file` lines with too few fields are skipped and reading goes on |
| CacheFile.ReadSkippedLine | gbfrelink.utility.manager/ModFileCacheRegistry.cs:73-97 | blank and whitespace lines, `//` comments, lines whose first field is neither `mod_id` nor `file`, and a bare `file` line change nothing |
| CacheRoundTrip.UsedEntries | gbfrelink.utility.manager/ModFileCacheRegistry.cs:125-129 | what is written and read back for one mod consists of valid entries only |
| CacheRoundTrip.ReadWriteCache | gbfrelink.utility.manager/ModFileCacheRegistry.cs:64-133 | reading the lines `WriteCache` wrote into an empty registry gives exactly the used entries of each mod, in order, unmarked and at seconds precision; mods without used entries are dropped |
| CacheRoundTrip.ReadWriteCacheText | gbfrelink.utility.manager/ModFileCacheRegistry.cs:64-133 | the same round trip through the text of the file, with `\r\n` line ends |
| CacheRoundTrip.SweepView | gbfrelink.utility.manager/ModFileCacheRegistry.cs:118-129 | as dictionaries, the round trip keeps every mod that had a used entry, with exactly its used entries, truncated to the second and unmarked |
| ModProcessing.RedirectFor | gbfrelink.utility.manager/DataManager.cs:392-399 | both sides of a redirect rule use only backslashes |
| ModProcessing.JsonRegisteredAsMsg | gbfrelink.utility.manager/DataManager.cs:448 | `foo.json` is registered as `foo.msg` |
| ModProcessing.XmlRegisteredAsBxm | gbfrelink.utility.manager/DataManager.cs:488 | for a stem without dots, `foo.xml` and `foo.bxm.xml` are both registered as `foo.bxm` |
| ModProcessing.AddUsedEntryRecords | gbfrelink.utility.manager/DataManager.cs:369-370 | adding a used entry records the file as used and current to the second, and leaves every other entry as it was |
| ModProcessing.MarkUsedRecords | gbfrelink.utility.manager/DataManager.cs:455-457 | marking an up-to-date entry records it as used and current, and leaves every other entry as it was |
| ModProcessing.ConvertToMsg | gbfrelink.utility.manager/DataManager.cs:446-482 | the file is registered under its `.msg` path in every case; the temp output serves it when it is up to date or the conversion succeeds, otherwise the source does; the cache records the source as used |
| ModProcessing.ConvertToBxm | gbfrelink.utility.manager/DataManager.cs:484-522 | an up-to-date or converted file is registered under its `.bxm` path and served from the temp output; a failed conversion keeps its own path and serves itself; the cache records it as used |
| ModProcessing.UpgradeMInfoIfNeeded | gbfrelink.utility.manager/DataManager.cs:401-437 | a parsable `.minfo` with a magic below 20240213 is rewritten with magic 100000101 and its other fields kept, served from the temp directory and recorded as used; any other `.minfo` serves itself and leaves the cache alone |
| ModProcessing.UpgradedCopyServesItself | gbfrelink.utility.manager/DataManager.cs:339-443 | when the upgraded copy in the temp directory parses to the source's model info with the new magic, processing that copy under the same `.minfo` game path serves it unchanged, redirects the game path to it and leaves the cache alone |
| ModProcessing.ProcessFile | gbfrelink.utility.manager/DataManager.cs:339-385 | a file is skipped exactly when it is a `.msg` beside a `.json` with conversion on; otherwise the registration follows its extension's path rules and is redirected to its serving file; a skipped file redirects its own path to itself and leaves the cache alone; every file not skipped is recorded as used, except a `.minfo` that needs no upgrade |
| DataManager.Kept | gbfrelink.utility.manager/DataManager.cs:118-126 | the files that count are found files that are not skipped |
| DataManager.ProcessAll | gbfrelink.utility.manager/DataManager.cs:118-126 | one redirect per found file, and one registration per kept file, in order, each belonging to the mod and obeying the path rules of its extension |
| DataManager.LastOwner | gbfrelink.utility.manager/DataManager.cs:128-136 | the owner of a game path is a registration under that path |
| DataManager.Registrations | gbfrelink.utility.manager/DataManager.cs:138-139 | each registration pairs the key of the file's game path with the size of its serving file |
| DataManager.AssignOwners | gbfrelink.utility.manager/DataManager.cs:128-149 | afterwards the owned paths are the old ones plus those registered; a registered path is owned by its last registration (last writer wins); other paths keep their owner; the index is the registrations applied in order |
| DataManager.RegisteredKeysAreExternal | gbfrelink.utility.manager/DataManager.cs:128-149 | every registered key is external with the size of its last registration and is no longer archived |
| DataManager.RegisterModFiles | gbfrelink.utility.manager/DataManager.cs:107-155 | a blank mod id or folder is rejected and nothing else is; the count is the number of files not skipped; one redirect is added per found file; the shipped index and the accessor are untouched |
| DataManager.RegisterModFilesOwnership | gbfrelink.utility.manager/DataManager.cs:128-149 | after registering a mod, each registered path is owned by its last registration, and its key is external and not archived; every other path keeps its owner |
| DataManager.FileExists | gbfrelink.utility.manager/DataManager.cs:241-267 | a null or empty path does not exist; otherwise a path exists exactly when its key is external, external files count and (if asked) the file is on disk, or its key is archived in the overlay |
| DataManager.RegisteredFileExists | gbfrelink.utility.manager/DataManager.cs:245-266 | a registered path exists, under any spelling that differs in case or separators, when external files count and the disk is not checked; it does not exist as an archived file |
| DataManager.AccessorOf | gbfrelink.utility.manager/DataManager.cs:273 | without an accessor, a fresh one over the shipped index is used |
| DataManager.GetArchiveFile | gbfrelink.utility.manager/DataManager.cs:269-275 | only the accessor changes; a file is "not found" exactly when its key is not in the shipped archive list, whatever the overlay says |
| DataManager.ArchiveReadIgnoresOverlay | gbfrelink.utility.manager/DataManager.cs:273-274 | managers that differ only in overlay, owners, cache or redirects read the same archive bytes |
| DataManager.GetModdedOrAchiveFile | gbfrelink.utility.manager/DataManager.cs:277-291 | an owned normalised name is served from its owner's file (or fails as unreadable) and changes nothing; any other name gives exactly what `GetArchiveFile` gives for the name as passed in, with archive errors wrapped, so overlay changes never affect it; "not found" exactly when its key is not in the shipped archive list |
| DataManager.ArchiveReadOfNormalized | gbfrelink.utility.manager/DataManager.cs:280-289 | lower-casing a name and turning `\` into `/` before an archive read does not change what is read |
| DataManager.UpperCaseKeyUnreachable | gbfrelink.utility.manager/DataManager.cs:280-282 | no name lower-cases to a game path holding an upper-case letter |
| DataManager.UpperCaseOwnerIsNotFound | gbfrelink.utility.manager/DataManager.cs:281-283 | when every owned path holds an upper-case letter, every read goes to the archive |
| DataManager.AddOrUpdateExternalBytes | gbfrelink.utility.manager/DataManager.cs:162-177 | the game path's key becomes external with the data's length and is no longer archived; every other key is unchanged; owners, shipped index and accessor are untouched; one redirect is added |
| DataManager.AddOrUpdateExternalPath | gbfrelink.utility.manager/DataManager.cs:185-198 | a missing file fails with `FileMissing` exactly when it does not exist, before anything changes; otherwise the same as the bytes overload, with the file's size on disk |

## Left out

- Logging, the `Initialize` path, `CheckGameDirectory`, `UpdateIndex` and the
  redirector itself are left out. They are I/O and FlatSharp
  serialisation; the model keeps the list of redirect rules the manager hands
  over.
- Files are never read or written, and the bytes of a converted output are not
  modelled. The JSON-to-MessagePack and XML-to-binary-XML converters and the
  `ModelInfo` codec are inputs that say whether a conversion succeeds and what
  a `.minfo` parses to (nothing when the read, the parse, or the
  serialisation and write of its upgraded copy throws).
- `Directory.GetFiles` and `Path.GetRelativePath` are not modelled: the files
  found under a mod folder, with their relative paths, are an input.
- `Env` is one snapshot of the disk. A converter's own write does not change
  what later calls in the same batch observe about existence or times.
- xxHash64 and the LZ4 decoder are function parameters; their algorithms are
  not modelled.
- `ToLower` is modelled for ASCII letters only, and `ToString`/`TryParseExact`
  for the invariant `dd/MM/yyyy HH:mm:ss` form only. Culture-specific
  separators and digits are not modelled.
- `CheckInitialized` and the uninitialised state are not modelled; every
  operation starts from an initialised manager.
- Archive.GetFileData: requires that every chunk lies inside its archive and
  that every locator names a chunk whose archive number is below the number
  of archives. The code does not check these. A short read leaves the rest of
  the pooled buffer as it was, so the result still has `FileSize` bytes, its
  tail stale (or, for a compressed chunk, decoded from stale input). An
  out-of-range archive number throws on the slot access before its own
  `> NumArchives` test (Archive.cs line 57) can run.
  It also requires that every locator with a chunk names a chunk index below
  the number of chunks, and that its offset plus its size fits in the chunk's
  uncompressed size. The code checks neither: an out-of-range chunk index
  throws on the `Chunks` access (Archive.cs line 54), and an overlong slice of
  the pooled buffer (lines 84 and 87) either throws or, when the pool handed
  out a larger buffer, returns bytes left over from an earlier use.
- `ArchiveAccessor.Dispose` is left out: it calls `Dispose` on slots that were
  never opened, which are null.
- DataManager.AddOrUpdateExternalBytes: requires the data to be shorter than
  2^31 bytes, the .NET array limit; the bytes written to the temp file are
  the input `Env` with that file added.
- DataManager.GetModdedOrAchiveFile: a failing `File.ReadAllBytes` is one
  error value, not the distinct .NET exceptions.
- CacheFile.WriteCache: its own contract states only the header line; what the
  lines say is stated by the round trip `CacheRoundTrip.ReadWriteCache`.
- CacheFile.ReadCacheLine: its own contract states only that the registry stays
  well formed; what each kind of line does is stated by `ReadFileLine`,
  `ReadModIdLine`, `ReadFileLineBadDate`, `ReadShortLines` and
  `ReadSkippedLine`.
- CacheFile.ReadCache: the same; what it reads back is stated by the round trip.
- CacheRoundTrip.UsedEntries: its own contract states only validity; its meaning
  is stated by `ReadWriteCache` and `SweepView`.
- IndexModel.RegisterAll: its own contract states only well-formedness; what a
  batch does to each key is stated by `RegisterAllProperties`.
- The `IDataManager` interface, `Config`, `Mod.cs` and `TextDataFile` are
  callers and configuration. They are not part of this model beyond the three
  processing switches.

=== FILE: archive.dfy ===
/** Reading one archived file out of the `data.<N>` archives (Archive.cs,
    `ArchiveAccessor`). */
module Archive {
  import opened Wrappers
  import opened PathHash
  import opened SortedSeq
  import opened IndexModel

  /** The LZ4 block decoder behind `LZ4Codec.Decode`: the bytes a block decodes
      to, or `None` when the block is malformed. Supplied by the caller. */
  type Lz4Decoder = seq<byte> -> Option<seq<byte>>

  /** `LZ4Codec.Decode(src, dst)` with a destination of `capacity` bytes: the
      number of bytes written, or -1 on failure. */
  function Lz4DecodeCount(lz4: Lz4Decoder, src: seq<byte>, capacity: nat): (n: int)
    ensures n == -1 || (0 <= n <= capacity && lz4(src).Some? && |lz4(src).value| == n)
  {
    match lz4(src)
    case None => -1
    case Some(out) => if |out| <= capacity then |out| else -1
  }

  datatype ArchiveError =
    | FileNotFound                           // the key is not an archived file
    | ArchiveFileMissing(dataFileNumber: nat) // `data.<N>` is not on disk
    | DecompressionFailed                    // LZ4 did not produce the whole chunk

  /** An archive accessor: the index it reads through, and one stream slot per
      archive number, empty until `data.<N>` is first opened and afterwards the
      contents that stream reads. */
  datatype ArchiveAccessor = ArchiveAccessor(index: IndexFile, streams: seq<Option<seq<byte>>>)

  /** The accessor's constructor when handed an index: no stream open yet. */
  function NewArchiveAccessor(index: IndexFile): (a: ArchiveAccessor)
    ensures a.index == index && |a.streams| == index.numArchives
    ensures forall n :: 0 <= n < |a.streams| ==> a.streams[n].None?
  {
    ArchiveAccessor(index, seq(index.numArchives, _ => None))
  }

  /** An index the reader can walk: its archive keys are sorted and aligned with
      their indexers, every indexer is the empty-file sentinel or names a chunk
      whose archive number is below `numArchives`, and every slice lies inside
      its chunk's decompressed bytes. */
  predicate ReadableIndex(ix: IndexFile) {
    && Sorted(ix.archiveFileHashes)
    && |ix.archiveFileHashes| == |ix.fileToChunkIndexers|
    && forall i :: 0 <= i < |ix.fileToChunkIndexers| ==> IndexerInRange(ix, ix.fileToChunkIndexers[i])
  }

  predicate IndexerInRange(ix: IndexFile, ind: FileToChunkIndexer) {
    ind.chunkEntryIndex == NoChunk
    || (&& 0 <= ind.chunkEntryIndex < |ix.chunks|
        && ix.chunks[ind.chunkEntryIndex].dataFileNumber < ix.numArchives
        && ind.offsetIntoDecompressedChunk + ind.fileSize <= ix.chunks[ind.chunkEntryIndex].uncompressedSize)
  }

  /** Stream reads are exact: every chunk lies inside its archive, both for an
      open stream and for the file on disk (`disk` maps `N` to the contents of
      `data.<N>` when that file exists). */
  predicate ReadsExact(acc: ArchiveAccessor, disk: map<nat, seq<byte>>) {
    forall c :: c in acc.index.chunks ==>
      && (c.dataFileNumber < |acc.streams| && acc.streams[c.dataFileNumber].Some? ==>
            c.fileOffset + c.size <= |acc.streams[c.dataFileNumber].value|)
      && (c.dataFileNumber in disk ==> c.fileOffset + c.size <= |disk[c.dataFileNumber]|)
  }

  predicate Ready(acc: ArchiveAccessor, disk: map<nat, seq<byte>>) {
    ReadableIndex(acc.index) && |acc.streams| == acc.index.numArchives && ReadsExact(acc, disk)
  }

  /** The indexer of the file named `fileName`, if it is archived. */
  function Locate(acc: ArchiveAccessor, xx: XxHash64, fileName: string): (r: Option<FileToChunkIndexer>)
    requires ReadableIndex(acc.index)
    ensures r.Some? <==> XXHash64Path(xx, fileName) in acc.index.archiveFileHashes
    ensures r.Some? ==> IndexerInRange(acc.index, r.value)
  {
    var i := BinarySearch(acc.index.archiveFileHashes, XXHash64Path(xx, fileName));
    if i < 0 then None else Some(acc.index.fileToChunkIndexers[i])
  }

  /** Open the stream for archive `n` unless it is already open. */
  function OpenStream(acc: ArchiveAccessor, n: nat, disk: map<nat, seq<byte>>): (r: Option<ArchiveAccessor>)
    requires n < |acc.streams|
    ensures r.Some? ==> r.value.index == acc.index && |r.value.streams| == |acc.streams|
    ensures r.Some? ==> r.value.streams[n].Some?
  {
    if acc.streams[n].Some? then Some(acc)
    else if n in disk then Some(acc.(streams := acc.streams[n := Some(disk[n])]))
    else None
  }

  /** `ArchiveAccessor.GetFileData`: look the key up by binary search, answer
      the empty-file sentinel without touching a stream, otherwise open (or
      reuse) the archive's stream, read the chunk, decompress it when its two
      sizes differ, and cut out exactly the file's bytes. */
  function GetFileData(acc: ArchiveAccessor, xx: XxHash64, fileName: string,
                       disk: map<nat, seq<byte>>, lz4: Lz4Decoder)
    : (r: (Result<seq<byte>, ArchiveError>, ArchiveAccessor))
    requires Ready(acc, disk)
    ensures r.1.index == acc.index && |r.1.streams| == |acc.streams| && Ready(r.1, disk)
    ensures r.0 == Err(FileNotFound) <==> Locate(acc, xx, fileName).None?
    ensures r.0.Ok? && Locate(acc, xx, fileName).value.chunkEntryIndex != NoChunk ==>
              |r.0.value| == Locate(acc, xx, fileName).value.fileSize
    ensures forall n :: 0 <= n < |acc.streams| && acc.streams[n].Some? ==> r.1.streams[n] == acc.streams[n]
    ensures forall n :: 0 <= n < |acc.streams| && r.1.streams[n] != acc.streams[n] ==>
              n in disk && r.1.streams[n] == Some(disk[n])
  {
    match Locate(acc, xx, fileName)
    case None => (Err(FileNotFound), acc)
    case Some(ind) =>
      if ind.chunkEntryIndex == NoChunk then (Ok([]), acc)
      else
        var c := acc.index.chunks[ind.chunkEntryIndex];
        match OpenStream(acc, c.dataFileNumber, disk)
        case None => (Err(ArchiveFileMissing(c.dataFileNumber)), acc)
        case Some(acc') =>
          assert c in acc.index.chunks;
          var data := acc'.streams[c.dataFileNumber].value;
          var chunk := data[c.fileOffset..c.fileOffset + c.size];
          var lo, hi := ind.offsetIntoDecompressedChunk, ind.offsetIntoDecompressedChunk + ind.fileSize;
          if c.size != c.uncompressedSize then
            if Lz4DecodeCount(lz4, chunk, c.uncompressedSize) != c.uncompressedSize then
              (Err(DecompressionFailed), acc')
            else
              (Ok(lz4(chunk).value[lo..hi]), acc')
          else
            (Ok(chunk[lo..hi]), acc')
  }

  // ---------------------------------------------------------------------------
  // Properties of a read
  // ---------------------------------------------------------------------------

  /** The bytes archive `n` yields through `acc`: the open stream if any,
      otherwise the file on disk. */
  function ArchiveBytes(acc: ArchiveAccessor, n: nat, disk: map<nat, seq<byte>>): Option<seq<byte>>
    requires n < |acc.streams|
  {
    if acc.streams[n].Some? then acc.streams[n] else if n in disk then Some(disk[n]) else None
  }

  /** The empty-file sentinel yields no bytes and opens no stream. */
  lemma EmptyFileSentinel(acc: ArchiveAccessor, xx: XxHash64, fileName: string,
                          disk: map<nat, seq<byte>>, lz4: Lz4Decoder)
    requires Ready(acc, disk)
    requires Locate(acc, xx, fileName).Some? && Locate(acc, xx, fileName).value.chunkEntryIndex == NoChunk
    ensures GetFileData(acc, xx, fileName, disk, lz4) == (Ok([]), acc)
  {
  }

  /** A raw chunk (both sizes equal) is sliced straight out of the archive
      bytes, whatever the decoder would do. */
  lemma RawChunkRead(acc: ArchiveAccessor, xx: XxHash64, fileName: string,
                     disk: map<nat, seq<byte>>, lz4: Lz4Decoder, lz4': Lz4Decoder)
    requires Ready(acc, disk)
    requires Locate(acc, xx, fileName).Some?
    requires var ind := Locate(acc, xx, fileName).value;
      && ind.chunkEntryIndex != NoChunk
      && acc.index.chunks[ind.chunkEntryIndex].size == acc.index.chunks[ind.chunkEntryIndex].uncompressedSize
    ensures var ind := Locate(acc, xx, fileName).value;
      var c := acc.index.chunks[ind.chunkEntryIndex];
      var start := c.fileOffset + ind.offsetIntoDecompressedChunk;
      match ArchiveBytes(acc, c.dataFileNumber, disk)
      case None => GetFileData(acc, xx, fileName, disk, lz4).0 == Err(ArchiveFileMissing(c.dataFileNumber))
      case Some(data) => GetFileData(acc, xx, fileName, disk, lz4).0 == Ok(data[start..start + ind.fileSize])
    ensures GetFileData(acc, xx, fileName, disk, lz4) == GetFileData(acc, xx, fileName, disk, lz4')
  {
    var ind := Locate(acc, xx, fileName).value;
    var c := acc.index.chunks[ind.chunkEntryIndex];
    assert c in acc.index.chunks;
    if ArchiveBytes(acc, c.dataFileNumber, disk).Some? {
      var data := ArchiveBytes(acc, c.dataFileNumber, disk).value;
      assert c.fileOffset + c.size <= |data|;
      var chunk := data[c.fileOffset..c.fileOffset + c.size];
      var lo := ind.offsetIntoDecompressedChunk;
      assert lo + ind.fileSize <= c.size;
      var s1 := chunk[lo..lo + ind.fileSize];
      var s2 := data[c.fileOffset + lo..c.fileOffset + lo + ind.fileSize];
      forall k | 0 <= k < |s1| ensures s1[k] == s2[k] {
        assert chunk[lo + k] == data[c.fileOffset + lo + k];
      }
      assert s1 == s2;
    }
  }

  /** A compressed chunk succeeds exactly when the decoder yields the whole
      decompressed size, and the file is sliced from the decoded bytes. */
  lemma CompressedChunkRead(acc: ArchiveAccessor, xx: XxHash64, fileName: string,
                            disk: map<nat, seq<byte>>, lz4: Lz4Decoder)
    requires Ready(acc, disk)
    requires Locate(acc, xx, fileName).Some?
    requires var ind := Locate(acc, xx, fileName).value;
      && ind.chunkEntryIndex != NoChunk
      && acc.index.chunks[ind.chunkEntryIndex].size != acc.index.chunks[ind.chunkEntryIndex].uncompressedSize
    requires var c := acc.index.chunks[Locate(acc, xx, fileName).value.chunkEntryIndex];
      ArchiveBytes(acc, c.dataFileNumber, disk).Some?
    ensures var ind := Locate(acc, xx, fileName).value;
      var c := acc.index.chunks[ind.chunkEntryIndex];
      var data := ArchiveBytes(acc, c.dataFileNumber, disk).value;
      c.fileOffset + c.size <= |data|
      && var decoded := lz4(data[c.fileOffset..c.fileOffset + c.size]);
      var lo := ind.offsetIntoDecompressedChunk;
      if decoded.Some? && |decoded.value| == c.uncompressedSize then
        GetFileData(acc, xx, fileName, disk, lz4).0 == Ok(decoded.value[lo..lo + ind.fileSize])
      else
        GetFileData(acc, xx, fileName, disk, lz4).0 == Err(DecompressionFailed)
  {
    var ind := Locate(acc, xx, fileName).value;
    var c := acc.index.chunks[ind.chunkEntryIndex];
    assert c in acc.index.chunks;
  }

  /** Once a stream is open, reads through it no longer depend on the disk. */
  lemma OpenStreamIsReused(acc: ArchiveAccessor, xx: XxHash64, fileName: string,
                           disk: map<nat, seq<byte>>, disk': map<nat, seq<byte>>, lz4: Lz4Decoder)
    requires Ready(acc, disk) && Ready(acc, disk')
    requires forall n :: 0 <= n < |acc.streams| ==> acc.streams[n].Some?
    ensures GetFileData(acc, xx, fileName, disk, lz4) == GetFileData(acc, xx, fileName, disk', lz4)
  {
  }
}

=== FILE: cache_file.dfy ===
/** The cache registry's text file (ModFileCacheRegistry.cs `ReadCache` and
    `WriteCache`): a `//` header, then per mod a `mod_id|<id>` line, one
    `file|<path>|<dd/MM/yyyy HH:mm:ss>` line per used entry, and a blank line. */
module CacheFile {
  import opened Wrappers
  import opened Text
  import opened DateTimes
  import opened CacheRegistry

  const Header: string := "// gbfrelink.utility.manager mod file cache"

  // ---------------------------------------------------------------------------
  // WriteCache
  // ---------------------------------------------------------------------------

  function ModIdLine(modId: string): string {
    "mod_id|" + modId
  }

  function FileLine(e: CachedModFileInfo): string
    requires ValidEntry(e)
  {
    "file|" + e.filePath + "|" + Format(e.lastModified)
  }

  /** One line per used entry; unused entries are dropped. */
  function UsedFileLines(files: seq<CachedModFileInfo>): seq<string>
    requires forall i :: 0 <= i < |files| ==> ValidEntry(files[i])
  {
    if |files| == 0 then []
    else (if files[0].isUsed then [FileLine(files[0])] else []) + UsedFileLines(files[1..])
  }

  /** The block of one mod; a mod without entries writes nothing. */
  function ModLines(m: ModFiles): seq<string>
    requires ValidFiles(m.files)
  {
    if |m.files| == 0 then [] else [ModIdLine(m.modId)] + UsedFileLines(m.files) + [""]
  }

  function ModsLines(mods: seq<ModFiles>): seq<string>
    requires forall i :: 0 <= i < |mods| ==> ValidFiles(mods[i].files)
  {
    if |mods| == 0 then [] else ModLines(mods[0]) + ModsLines(mods[1..])
  }

  /** `WriteCache`: the lines written, header first. */
  function WriteCache(reg: Registry): (lines: seq<string>)
    requires CacheRegistry.Valid(reg)
    ensures |lines| >= 1 && lines[0] == Header
  {
    [Header] + ModsLines(reg.mods)
  }

  /** `WriteCache` as file text, each line ended by `\r\n`. */
  function WriteCacheText(reg: Registry): string
    requires CacheRegistry.Valid(reg)
  {
    JoinLines(WriteCache(reg))
  }

  // ---------------------------------------------------------------------------
  // ReadCache
  // ---------------------------------------------------------------------------

  /** The parser's state: the registry so far and the current mod id. */
  datatype ReadState = ReadState(reg: Registry, modId: string)

  /** One iteration of the `ReadCache` loop. Blank lines, `//` comments,
      unknown tags, short `mod_id`/`file` lines and unparsable dates are
      skipped; a `mod_id` line switches the current mod; a `file` line adds an
      entry under the current mod. */
  function ReadCacheLine(st: ReadState, line: string): (r: ReadState)
    requires CacheRegistry.Valid(st.reg)
    ensures CacheRegistry.Valid(r.reg)
  {
    if IsBlank(line) || StartsWith(line, "//") then st
    else
      var parts := Split(line, '|');
      if parts[0] == "mod_id" then
        if |parts| < 2 then st else st.(modId := parts[1])
      else if parts[0] == "file" then
        if |parts| < 3 then st
        else match Parse(parts[2])
          case None => st
          case Some(d) => st.(reg := AddEntry(st.reg, st.modId, Slashes(parts[1]), d).0)
      else st
  }

  function ReadCacheLines(st: ReadState, lines: seq<string>): (r: ReadState)
    requires CacheRegistry.Valid(st.reg)
    ensures CacheRegistry.Valid(r.reg)
    decreases |lines|
  {
    if |lines| == 0 then st else ReadCacheLines(ReadCacheLine(st, lines[0]), lines[1..])
  }

  /** `ReadCache`: fold the file's lines into `reg`, starting with the empty
      mod id. */
  function ReadCache(reg: Registry, lines: seq<string>): (r: Registry)
    requires CacheRegistry.Valid(reg)
    ensures CacheRegistry.Valid(r)
  {
    ReadCacheLines(ReadState(reg, ""), lines).reg
  }

  function ReadCacheText(reg: Registry, text: string): (r: Registry)
    requires CacheRegistry.Valid(reg)
    ensures CacheRegistry.Valid(r)
  {
    ReadCache(reg, SplitLines(text))
  }

  // ---------------------------------------------------------------------------
  // What the parser does with individual lines
  // ---------------------------------------------------------------------------

  /** The fields of a `file` line. */
  lemma SplitFileLine(path: string, date: string)
    requires '|' !in path && '|' !in date
    ensures Split("file|" + path + "|" + date, '|') == ["file", path, date]
  {
    SplitNoSep(date, '|');
    SplitFirst(path, '|', date);
    assert "file|" + path + "|" + date == "file" + ['|'] + (path + ['|'] + date);
    SplitFirst("file", '|', path + ['|'] + date);
  }

  /** A `file` line adds its entry under the most recent mod id. */
  lemma ReadFileLine(st: ReadState, path: string, date: string)
    requires CacheRegistry.Valid(st.reg)
    requires '|' !in path && '|' !in date && Parse(date).Some?
    ensures ReadCacheLine(st, "file|" + path + "|" + date) ==
              st.(reg := AddEntry(st.reg, st.modId, Slashes(path), Parse(date).value).0)
  {
    var line := "file|" + path + "|" + date;
    NotBlankNorComment(line);
    SplitFileLine(path, date);
    var parts := Split(line, '|');
    assert parts[0] == "file" && parts[0] != "mod_id" && |parts| == 3;
    assert parts[1] == path && parts[2] == date;
  }

  /** A line starting with a letter is neither blank nor a comment. */
  lemma NotBlankNorComment(line: string)
    requires |line| > 0 && 'a' <= line[0] <= 'z'
    ensures !IsBlank(line) && !StartsWith(line, "//")
  {
    assert !IsWhiteSpace(line[0]);
    if |line| >= 2 {
      assert line[..2][0] == line[0];
    }
  }

  /** A `mod_id` line switches the current mod id and adds nothing. */
  lemma ReadModIdLine(st: ReadState, modId: string)
    requires CacheRegistry.Valid(st.reg)
    requires '|' !in modId
    ensures ReadCacheLine(st, ModIdLine(modId)) == st.(modId := modId)
  {
    var line := ModIdLine(modId);
    NotBlankNorComment(line);
    SplitNoSep(modId, '|');
    assert line == "mod_id" + ['|'] + modId;
    SplitFirst("mod_id", '|', modId);
  }

  /** A `file` line whose date field does not parse is skipped. */
  lemma ReadFileLineBadDate(st: ReadState, path: string, date: string)
    requires CacheRegistry.Valid(st.reg)
    requires '|' !in path && '|' !in date && Parse(date).None?
    ensures ReadCacheLine(st, "file|" + path + "|" + date) == st
  {
    var line := "file|" + path + "|" + date;
    NotBlankNorComment(line);
    SplitFileLine(path, date);
  }

  /** Short `mod_id` and `file` lines are skipped, and the loop goes on. */
  lemma ReadShortLines(st: ReadState, rest: seq<string>)
    requires CacheRegistry.Valid(st.reg)
    ensures ReadCacheLines(st, ["mod_id"] + rest) == ReadCacheLines(st, rest)
    ensures forall f :: '|' !in f ==> ReadCacheLines(st, ["file|" + f] + rest) == ReadCacheLines(st, rest)
  {
    ShortModIdLine(st);
    forall f | '|' !in f ensures ReadCacheLine(st, "file|" + f) == st {
      ShortFileLine(st, f);
    }
    assert (["mod_id"] + rest)[1..] == rest;
  }

  lemma ShortModIdLine(st: ReadState)
    requires CacheRegistry.Valid(st.reg)
    ensures ReadCacheLine(st, "mod_id") == st
  {
    SplitNoSep("mod_id", '|');
    NotBlankNorComment("mod_id");
  }

  lemma ShortFileLine(st: ReadState, f: string)
    requires CacheRegistry.Valid(st.reg) && '|' !in f
    ensures ReadCacheLine(st, "file|" + f) == st
  {
    var line := "file|" + f;
    NotBlankNorComment(line);
    SplitNoSep(f, '|');
    assert line == "file" + ['|'] + f;
    SplitFirst("file", '|', f);
  }

  /** Blank lines, `//` comments, lines with an unknown tag and a bare `file`
      line leave the state as it is. */
  lemma ReadSkippedLine(st: ReadState, line: string)
    requires CacheRegistry.Valid(st.reg)
    requires || IsBlank(line) || StartsWith(line, "//")
             || (Split(line, '|')[0] != "mod_id" && Split(line, '|')[0] != "file")
             || line == "file"
    ensures ReadCacheLine(st, line) == st
  {
    if line == "file" {
      SplitNoSep(line, '|');
      NotBlankNorComment(line);
    }
  }
}

=== FILE: cache_registry.dfy ===
/** The mod file cache registry (ModFileCacheRegistry.cs): per mod id, the
    last-modified time of every file the loader produced, so that unchanged
    files are not converted again. */
module CacheRegistry {
  import opened Wrappers
  import Text
  import opened DateTimes

  /** One cached file. `isUsed` is the mark of the mark-and-sweep eviction:
      only entries touched during this session are written back. */
  datatype CachedModFileInfo = CachedModFileInfo(filePath: string, lastModified: DateTime, isUsed: bool)

  /** The files of one mod, in dictionary insertion order, keyed by `filePath`. */
  datatype ModFiles = ModFiles(modId: string, files: seq<CachedModFileInfo>)

  /** The registry: mods in dictionary insertion order. */
  datatype Registry = Registry(mods: seq<ModFiles>)

  const Empty: Registry := Registry([])

  /** `path.Replace('\\', '/')`. */
  function Slashes(path: string): (r: string)
    ensures |r| == |path| && '\\' !in r
  {
    Text.ReplaceChar(path, '\\', '/')
  }

  predicate DistinctPaths(files: seq<CachedModFileInfo>) {
    forall i, j :: 0 <= i < j < |files| ==> files[i].filePath != files[j].filePath
  }

  predicate DistinctIds(mods: seq<ModFiles>) {
    forall i, j :: 0 <= i < j < |mods| ==> mods[i].modId != mods[j].modId
  }

  predicate ValidEntry(e: CachedModFileInfo) {
    '\\' !in e.filePath && DateTimes.Valid(e.lastModified)
  }

  predicate ValidFiles(files: seq<CachedModFileInfo>) {
    DistinctPaths(files) && forall i :: 0 <= i < |files| ==> ValidEntry(files[i])
  }

  /** Dictionary keys are unique, keys are slash-normalised paths, and every
      stored time is a real instant. */
  predicate Valid(reg: Registry) {
    DistinctIds(reg.mods) && forall i :: 0 <= i < |reg.mods| ==> ValidFiles(reg.mods[i].files)
  }

  // ---------------------------------------------------------------------------
  // The dictionary view
  // ---------------------------------------------------------------------------

  function FilesView(files: seq<CachedModFileInfo>): (v: map<string, CachedModFileInfo>)
    ensures forall p :: p in v <==> exists i :: 0 <= i < |files| && files[i].filePath == p
  {
    if |files| == 0 then map[] else FilesView(files[1..])[files[0].filePath := files[0]]
  }

  /** The registry as the nested dictionary `mod id -> path -> entry`. */
  function View(reg: Registry): map<string, map<string, CachedModFileInfo>> {
    ModsView(reg.mods)
  }

  function ModsView(mods: seq<ModFiles>): (v: map<string, map<string, CachedModFileInfo>>)
    ensures forall m :: m in v <==> exists i :: 0 <= i < |mods| && mods[i].modId == m
  {
    if |mods| == 0 then map[] else ModsView(mods[1..])[mods[0].modId := FilesView(mods[0].files)]
  }

  function FileIndex(files: seq<CachedModFileInfo>, path: string): (r: Option<nat>)
    ensures r.Some? ==> r.value < |files| && files[r.value].filePath == path
    ensures r.None? ==> forall i :: 0 <= i < |files| ==> files[i].filePath != path
  {
    if |files| == 0 then None
    else if files[0].filePath == path then Some(0)
    else match FileIndex(files[1..], path)
      case None => None
      case Some(i) => Some(i + 1)
  }

  function ModIndex(mods: seq<ModFiles>, modId: string): (r: Option<nat>)
    ensures r.Some? ==> r.value < |mods| && mods[r.value].modId == modId
    ensures r.None? ==> forall i :: 0 <= i < |mods| ==> mods[i].modId != modId
  {
    if |mods| == 0 then None
    else if mods[0].modId == modId then Some(0)
    else match ModIndex(mods[1..], modId)
      case None => None
      case Some(i) => Some(i + 1)
  }

  lemma {:induction false} FilesViewAt(files: seq<CachedModFileInfo>, i: nat)
    requires DistinctPaths(files) && i < |files|
    ensures FilesView(files)[files[i].filePath] == files[i]
    decreases |files|
  {
    if i > 0 {
      FilesViewAt(files[1..], i - 1);
    }
  }

  lemma {:induction false} ModsViewAt(mods: seq<ModFiles>, i: nat)
    requires DistinctIds(mods) && i < |mods|
    ensures ModsView(mods)[mods[i].modId] == FilesView(mods[i].files)
    decreases |mods|
  {
    if i > 0 {
      ModsViewAt(mods[1..], i - 1);
    }
  }

  lemma {:induction false} FilesViewUpdate(files: seq<CachedModFileInfo>, i: nat, e: CachedModFileInfo)
    requires i < |files| && files[i].filePath == e.filePath && DistinctPaths(files)
    ensures FilesView(files[i := e]) == FilesView(files)[e.filePath := e]
    decreases |files|
  {
    if i > 0 {
      assert files[i := e][1..] == files[1..][i - 1 := e];
      FilesViewUpdate(files[1..], i - 1, e);
    } else {
      assert files[i := e][1..] == files[1..];
    }
  }

  lemma {:induction false} FilesViewAppend(files: seq<CachedModFileInfo>, e: CachedModFileInfo)
    requires forall i :: 0 <= i < |files| ==> files[i].filePath != e.filePath
    ensures FilesView(files + [e]) == FilesView(files)[e.filePath := e]
    decreases |files|
  {
    if |files| > 0 {
      assert (files + [e])[1..] == files[1..] + [e];
      FilesViewAppend(files[1..], e);
    }
  }

  lemma {:induction false} ModsViewUpdate(mods: seq<ModFiles>, i: nat, m: ModFiles)
    requires i < |mods| && mods[i].modId == m.modId && DistinctIds(mods)
    ensures ModsView(mods[i := m]) == ModsView(mods)[m.modId := FilesView(m.files)]
    decreases |mods|
  {
    if i > 0 {
      assert mods[i := m][1..] == mods[1..][i - 1 := m];
      ModsViewUpdate(mods[1..], i - 1, m);
    } else {
      assert mods[i := m][1..] == mods[1..];
    }
  }

  lemma {:induction false} ModsViewAppend(mods: seq<ModFiles>, m: ModFiles)
    requires forall i :: 0 <= i < |mods| ==> mods[i].modId != m.modId
    ensures ModsView(mods + [m]) == ModsView(mods)[m.modId := FilesView(m.files)]
    decreases |mods|
  {
    if |mods| > 0 {
      assert (mods + [m])[1..] == mods[1..] + [m];
      ModsViewAppend(mods[1..], m);
    }
  }

  // ---------------------------------------------------------------------------
  // Operations
  // ---------------------------------------------------------------------------

  /** `files[filePath] = entry`: replace in place, or append a new key. */
  function PutFile(files: seq<CachedModFileInfo>, e: CachedModFileInfo): (r: seq<CachedModFileInfo>)
    requires ValidFiles(files) && ValidEntry(e)
    ensures ValidFiles(r)
    ensures FilesView(r) == FilesView(files)[e.filePath := e]
  {
    match FileIndex(files, e.filePath)
    case Some(i) =>
      FilesViewUpdate(files, i, e);
      files[i := e]
    case None =>
      FilesViewAppend(files, e);
      files + [e]
  }

  /** Replace the file list of `modId`, creating the mod if it is missing. */
  function PutMod(reg: Registry, modId: string, files: seq<CachedModFileInfo>): (r: Registry)
    requires Valid(reg) && ValidFiles(files)
    ensures Valid(r)
    ensures View(r) == View(reg)[modId := FilesView(files)]
  {
    match ModIndex(reg.mods, modId)
    case Some(i) =>
      ModsViewUpdate(reg.mods, i, ModFiles(modId, files));
      Registry(reg.mods[i := ModFiles(modId, files)])
    case None =>
      ModsViewAppend(reg.mods, ModFiles(modId, files));
      Registry(reg.mods + [ModFiles(modId, files)])
  }

  /** The file list of `modId`, empty when the mod has none. */
  function FilesOf(reg: Registry, modId: string): (files: seq<CachedModFileInfo>)
    requires Valid(reg)
    ensures ValidFiles(files)
    ensures modId in View(reg) ==> FilesView(files) == View(reg)[modId]
    ensures modId !in View(reg) ==> files == []
  {
    match ModIndex(reg.mods, modId)
    case Some(i) =>
      ModsViewAt(reg.mods, i);
      reg.mods[i].files
    case None => []
  }

  /** `AddEntry(modId, filePath, lastModified)`: store a fresh, unused entry
      under the slash-normalised path, replacing any previous one; the mod's
      dictionary is created on first use. */
  function AddEntry(reg: Registry, modId: string, filePath: string, lastModified: DateTime)
    : (r: (Registry, CachedModFileInfo))
    requires Valid(reg) && DateTimes.Valid(lastModified)
    ensures Valid(r.0)
    ensures r.1 == CachedModFileInfo(Slashes(filePath), lastModified, false)
    ensures View(r.0) == View(reg)[modId :=
              (if modId in View(reg) then View(reg)[modId] else map[])[Slashes(filePath) := r.1]]
  {
    var e := CachedModFileInfo(Slashes(filePath), lastModified, false);
    (PutMod(reg, modId, PutFile(FilesOf(reg, modId), e)), e)
  }

  /** `entry.IsUsed = true` on the entry stored for (`modId`, `path`); nothing
      changes when there is none. */
  function MarkUsed(reg: Registry, modId: string, path: string): (r: Registry)
    requires Valid(reg)
    ensures Valid(r)
    ensures modId in View(reg) && path in View(reg)[modId] ==>
              View(r) == View(reg)[modId := View(reg)[modId][path := View(reg)[modId][path].(isUsed := true)]]
    ensures !(modId in View(reg) && path in View(reg)[modId]) ==> r == reg
  {
    var files := FilesOf(reg, modId);
    match FileIndex(files, path)
    case Some(i) =>
      FilesViewAt(files, i);
      PutMod(reg, modId, PutFile(files, files[i].(isUsed := true)))
    case None => reg
  }

  /** `AddEntry` followed by setting `IsUsed` on the returned entry. */
  function AddUsedEntry(reg: Registry, modId: string, filePath: string, lastModified: DateTime): (r: Registry)
    requires Valid(reg) && DateTimes.Valid(lastModified)
    ensures Valid(r)
    ensures View(r) == View(reg)[modId :=
              (if modId in View(reg) then View(reg)[modId] else map[])[Slashes(filePath) :=
                CachedModFileInfo(Slashes(filePath), lastModified, true)]]
  {
    var (added, e) := AddEntry(reg, modId, filePath, lastModified);
    var path := Slashes(filePath);
    var before: map<string, CachedModFileInfo> := if modId in View(reg) then View(reg)[modId] else map[];
    var r := MarkUsed(added, modId, path);
    OverwriteTwice(View(reg), modId, before, path, e, e.(isUsed := true));
    r
  }

  lemma OverwriteTwice<K, L, V>(v: map<K, map<L, V>>, k: K, inner: map<L, V>, l: L, x: V, y: V)
    ensures var v' := v[k := inner[l := x]];
      v'[k := v'[k][l := y]] == v[k := inner[l := y]]
  {
    var v' := v[k := inner[l := x]];
    assert v'[k] == inner[l := x];
    assert inner[l := x][l := y] == inner[l := y];
  }

  /** `TryGetFileIfUpToDate`: the entry for (`modId`, slash-normalised
      `gamePath`) when its stored time equals `current` with the sub-second
      part dropped; `None` when the mod, the path or the time does not match. */
  function TryGetFileIfUpToDate(reg: Registry, modId: string, gamePath: string, current: DateTime)
    : (r: Option<CachedModFileInfo>)
    requires Valid(reg) && DateTimes.Valid(current)
    ensures r.Some? <==>
              && modId in View(reg) && Slashes(gamePath) in View(reg)[modId]
              && View(reg)[modId][Slashes(gamePath)].lastModified == TruncateToSeconds(current)
    ensures r.Some? ==> r.value == View(reg)[modId][Slashes(gamePath)]
  {
    var current' := TruncateToSeconds(current);
    var path := Slashes(gamePath);
    match ModIndex(reg.mods, modId)
    case None => None
    case Some(i) =>
      ModsViewAt(reg.mods, i);
      var files := reg.mods[i].files;
      match FileIndex(files, path)
      case None => None
      case Some(j) =>
        FilesViewAt(files, j);
        if current' == files[j].lastModified then Some(files[j]) else None
  }

  /** An entry added with a time at seconds precision is found up to date by
      every later query in the same second and by no other: freshness is
      decided at whole seconds, and the query normalises the path the same
      way the entry was stored. */
  lemma AddEntryThenTryGet(reg: Registry, modId: string, filePath: string, stored: DateTime, current: DateTime)
    requires Valid(reg) && DateTimes.Valid(stored) && stored.ticks == 0 && DateTimes.Valid(current)
    ensures var (r, e) := AddEntry(reg, modId, filePath, stored);
      TryGetFileIfUpToDate(r, modId, filePath, current) ==
        (if current.(ticks := 0) == stored then Some(e) else None)
  {
    var (r, e) := AddEntry(reg, modId, filePath, stored);
    assert View(r)[modId][Slashes(filePath)] == e;
  }

  /** The entry stored for (`modId`, `path`), if any. */
  function Lookup(reg: Registry, modId: string, path: string): Option<CachedModFileInfo> {
    LookupIn(View(reg), modId, path)
  }

  function LookupIn(v: map<string, map<string, CachedModFileInfo>>, modId: string, path: string)
    : Option<CachedModFileInfo>
  {
    if modId in v && path in v[modId] then Some(v[modId][path]) else None
  }

  /** Storing `e` at (`modId`, `path`) of the nested dictionary changes the
      lookup of that pair and of no other. */
  lemma LookupInStore(v: map<string, map<string, CachedModFileInfo>>, modId: string, path: string,
                      e: CachedModFileInfo)
    ensures var v' := v[modId := (if modId in v then v[modId] else map[])[path := e]];
      && LookupIn(v', modId, path) == Some(e)
      && forall id, p :: (id != modId || p != path) ==> LookupIn(v', id, p) == LookupIn(v, id, p)
  {
  }
}

=== FILE: cache_round_trip.dfy ===
/** Reading back what `WriteCache` wrote: the registry that comes back holds
    exactly the used entries of each mod, at seconds precision and unmarked. */
module CacheRoundTrip {
  import opened Wrappers
  import opened Text
  import opened DateTimes
  import opened CacheRegistry
  import opened CacheFile

  /** An entry as it comes back from the file: time truncated to the second,
      not yet used in the new session. */
  function Swept(e: CachedModFileInfo): (r: CachedModFileInfo)
    requires ValidEntry(e)
    ensures ValidEntry(r)
  {
    CachedModFileInfo(e.filePath, TruncateToSeconds(e.lastModified), false)
  }

  /** The used entries of a mod, in order, as they come back from the file. */
  function UsedEntries(files: seq<CachedModFileInfo>): (r: seq<CachedModFileInfo>)
    requires forall i :: 0 <= i < |files| ==> ValidEntry(files[i])
    ensures forall i :: 0 <= i < |r| ==> ValidEntry(r[i])
  {
    if |files| == 0 then []
    else (if files[0].isUsed then [Swept(files[0])] else []) + UsedEntries(files[1..])
  }

  /** `acc` followed by the mod `modId` holding `es`, when `es` is not empty. */
  function AppendMod(acc: Registry, modId: string, es: seq<CachedModFileInfo>): Registry {
    Registry(acc.mods + (if |es| == 0 then [] else [ModFiles(modId, es)]))
  }

  function SweepMods(mods: seq<ModFiles>): seq<ModFiles>
    requires forall i :: 0 <= i < |mods| ==> ValidFiles(mods[i].files)
  {
    if |mods| == 0 then []
    else
      assert ValidFiles(mods[0].files);
      AppendMod(Empty, mods[0].modId, UsedEntries(mods[0].files)).mods + SweepMods(mods[1..])
  }

  /** Mark-and-sweep as seen through the file: unused entries and mods left
      without entries are dropped, the rest come back unmarked at seconds
      precision. */
  function Sweep(reg: Registry): Registry
    requires CacheRegistry.Valid(reg)
  {
    Registry(SweepMods(reg.mods))
  }

  /** Mod ids and paths that survive the line and field framing. */
  predicate Printable(reg: Registry) {
    forall i :: 0 <= i < |reg.mods| ==>
      && '|' !in reg.mods[i].modId && SingleLine(reg.mods[i].modId)
      && forall j :: 0 <= j < |reg.mods[i].files| ==>
           '|' !in reg.mods[i].files[j].filePath && SingleLine(reg.mods[i].files[j].filePath)
  }

  // ---------------------------------------------------------------------------
  // The round trip
  // ---------------------------------------------------------------------------

  lemma {:induction false} ReadCacheLinesAppend(st: ReadState, a: seq<string>, b: seq<string>)
    requires CacheRegistry.Valid(st.reg)
    ensures ReadCacheLines(st, a + b) == ReadCacheLines(ReadCacheLines(st, a), b)
    decreases |a|
  {
    if |a| == 0 {
      assert a + b == b;
    } else {
      var st' := ReadCacheLine(st, a[0]);
      assert (a + b)[0] == a[0];
      assert (a + b)[1..] == a[1..] + b;
      assert ReadCacheLines(st, a + b) == ReadCacheLines(st', a[1..] + b);
      assert ReadCacheLines(st, a) == ReadCacheLines(st', a[1..]);
      ReadCacheLinesAppend(st', a[1..], b);
    }
  }

  lemma SlashesNoBackslash(p: string)
    requires '\\' !in p
    ensures Slashes(p) == p
  {
  }

  lemma AppendModValid(acc: Registry, modId: string, es: seq<CachedModFileInfo>)
    requires CacheRegistry.Valid(acc) && ValidFiles(es)
    requires forall i :: 0 <= i < |acc.mods| ==> acc.mods[i].modId != modId
    ensures CacheRegistry.Valid(AppendMod(acc, modId, es))
  {
  }

  /** Adding a fresh path to the mod being rebuilt at the end appends it there. */
  lemma AddEntryAppends(acc: Registry, modId: string, es: seq<CachedModFileInfo>, path: string, t: DateTime)
    requires CacheRegistry.Valid(acc) && ValidFiles(es) && '\\' !in path && DateTimes.Valid(t)
    requires forall i :: 0 <= i < |acc.mods| ==> acc.mods[i].modId != modId
    requires forall i :: 0 <= i < |es| ==> es[i].filePath != path
    ensures CacheRegistry.Valid(AppendMod(acc, modId, es))
    ensures AddEntry(AppendMod(acc, modId, es), modId, path, t).0
              == AppendMod(acc, modId, es + [CachedModFileInfo(path, t, false)])
  {
    AppendModValid(acc, modId, es);
    SlashesNoBackslash(path);
    var reg := AppendMod(acc, modId, es);
    var e := CachedModFileInfo(path, t, false);
    if |es| > 0 {
      var k := ModIndex(reg.mods, modId);
      assert reg.mods[|acc.mods|].modId == modId;
      assert k == Some(|acc.mods|);
      assert FilesOf(reg, modId) == es;
      assert PutFile(es, e) == es + [e];
      assert reg.mods[|acc.mods| := ModFiles(modId, es + [e])] == acc.mods + [ModFiles(modId, es + [e])];
    }
  }

  /** The `file` line of a used entry appends it, swept, to the mod being rebuilt. */
  lemma ReadUsedFileLine(acc: Registry, modId: string, es: seq<CachedModFileInfo>, f: CachedModFileInfo)
    requires CacheRegistry.Valid(acc) && ValidFiles(es) && ValidEntry(f)
    requires forall i :: 0 <= i < |acc.mods| ==> acc.mods[i].modId != modId
    requires forall i :: 0 <= i < |es| ==> es[i].filePath != f.filePath
    requires '|' !in f.filePath
    ensures CacheRegistry.Valid(AppendMod(acc, modId, es))
    ensures ReadCacheLine(ReadState(AppendMod(acc, modId, es), modId), FileLine(f))
              == ReadState(AppendMod(acc, modId, es + [Swept(f)]), modId)
  {
    AppendModValid(acc, modId, es);
    var st := ReadState(AppendMod(acc, modId, es), modId);
    assert '|' !in Format(f.lastModified);
    ParseFormat(f.lastModified);
    ReadFileLine(st, f.filePath, Format(f.lastModified));
    SlashesNoBackslash(f.filePath);
    AddEntryAppends(acc, modId, es, f.filePath, TruncateToSeconds(f.lastModified));
  }

  /** The entries the first of `files` contributes when read back. */
  function FirstUsed(files: seq<CachedModFileInfo>): seq<CachedModFileInfo>
    requires |files| > 0 && ValidEntry(files[0])
  {
    if files[0].isUsed then [Swept(files[0])] else []
  }

  lemma ReadCacheLinesCons(st: ReadState, line: string, rest: seq<string>)
    requires CacheRegistry.Valid(st.reg)
    ensures ReadCacheLines(st, [line] + rest) == ReadCacheLines(ReadCacheLine(st, line), rest)
  {
    assert ([line] + rest)[1..] == rest;
  }

  /** What the rest of the files still need once the first one is read. */
  lemma FirstUsedFresh(es: seq<CachedModFileInfo>, files: seq<CachedModFileInfo>)
    requires ValidFiles(es) && ValidFiles(files) && |files| > 0
    requires forall i, j :: 0 <= i < |es| && 0 <= j < |files| ==> es[i].filePath != files[j].filePath
    ensures ValidFiles(es + FirstUsed(files))
    ensures forall i, j :: 0 <= i < |es + FirstUsed(files)| && 0 <= j < |files[1..]| ==>
              (es + FirstUsed(files))[i].filePath != files[1..][j].filePath
  {
    var es' := es + FirstUsed(files);
    forall i, j | 0 <= i < |es'| && 0 <= j < |files[1..]|
      ensures es'[i].filePath != files[1..][j].filePath
    {
      assert files[1..][j] == files[j + 1];
      if i >= |es| { assert es'[i].filePath == files[0].filePath; }
      else { assert es'[i] == es[i]; }
    }
  }

  /** Reading the lines of `files` handles the first entry, then the rest. */
  lemma ReadFirstFile(acc: Registry, modId: string, es: seq<CachedModFileInfo>, files: seq<CachedModFileInfo>)
    requires CacheRegistry.Valid(acc) && ValidFiles(es) && ValidFiles(files) && |files| > 0
    requires forall i :: 0 <= i < |acc.mods| ==> acc.mods[i].modId != modId
    requires forall i :: 0 <= i < |es| ==> es[i].filePath != files[0].filePath
    requires '|' !in files[0].filePath
    ensures CacheRegistry.Valid(AppendMod(acc, modId, es))
    ensures CacheRegistry.Valid(AppendMod(acc, modId, es + FirstUsed(files)))
    ensures ReadCacheLines(ReadState(AppendMod(acc, modId, es), modId), UsedFileLines(files))
              == ReadCacheLines(ReadState(AppendMod(acc, modId, es + FirstUsed(files)), modId),
                                UsedFileLines(files[1..]))
  {
    AppendModValid(acc, modId, es);
    var f := files[0];
    var rest := UsedFileLines(files[1..]);
    if f.isUsed {
      assert UsedFileLines(files) == [FileLine(f)] + rest;
      ReadCacheLinesCons(ReadState(AppendMod(acc, modId, es), modId), FileLine(f), rest);
      ReadUsedFileLine(acc, modId, es, f);
    } else {
      assert UsedFileLines(files) == rest;
      assert es + [] == es;
    }
  }

  /** The `file` lines of one mod rebuild its used entries after `es`. */
  lemma {:induction false} ReadUsedFileLines(acc: Registry, modId: string,
                                             es: seq<CachedModFileInfo>, files: seq<CachedModFileInfo>)
    requires CacheRegistry.Valid(acc) && ValidFiles(es) && ValidFiles(files)
    requires forall i :: 0 <= i < |acc.mods| ==> acc.mods[i].modId != modId
    requires forall i, j :: 0 <= i < |es| && 0 <= j < |files| ==> es[i].filePath != files[j].filePath
    requires forall j :: 0 <= j < |files| ==> '|' !in files[j].filePath
    ensures CacheRegistry.Valid(AppendMod(acc, modId, es))
    ensures ReadCacheLines(ReadState(AppendMod(acc, modId, es), modId), UsedFileLines(files))
              == ReadState(AppendMod(acc, modId, es + UsedEntries(files)), modId)
    decreases |files|
  {
    AppendModValid(acc, modId, es);
    if |files| == 0 {
      assert es + [] == es;
    } else {
      ReadFirstFile(acc, modId, es, files);
      FirstUsedFresh(es, files);
      var es' := es + FirstUsed(files);
      ReadUsedFileLines(acc, modId, es', files[1..]);
      UsedEntriesCons(es, files);
    }
  }

  lemma {:induction false} UsedEntriesCons(es: seq<CachedModFileInfo>, files: seq<CachedModFileInfo>)
    requires |files| > 0 && forall i :: 0 <= i < |files| ==> ValidEntry(files[i])
    ensures es + FirstUsed(files) + UsedEntries(files[1..]) == es + UsedEntries(files)
  {
    var a := FirstUsed(files);
    var b := UsedEntries(files[1..]);
    assert UsedEntries(files) == a + b;
    SeqAssoc(es, a, b);
  }

  lemma SeqAssoc<T>(a: seq<T>, b: seq<T>, c: seq<T>)
    ensures a + b + c == a + (b + c)
  {
  }

  /** One mod's block rebuilds that mod's used entries, if any. */
  lemma ReadModBlock(acc: Registry, cur: string, m: ModFiles)
    requires CacheRegistry.Valid(acc) && ValidFiles(m.files) && |m.files| > 0
    requires forall i :: 0 <= i < |acc.mods| ==> acc.mods[i].modId != m.modId
    requires '|' !in m.modId && forall j :: 0 <= j < |m.files| ==> '|' !in m.files[j].filePath
    ensures ReadCacheLines(ReadState(acc, cur), ModLines(m))
              == ReadState(AppendMod(acc, m.modId, UsedEntries(m.files)), m.modId)
  {
    var st := ReadState(acc, cur);
    var fileLines := UsedFileLines(m.files);
    assert ModLines(m) == [ModIdLine(m.modId)] + (fileLines + [""]);
    ReadCacheLinesAppend(st, [ModIdLine(m.modId)], fileLines + [""]);
    ReadModIdLine(st, m.modId);
    assert ReadCacheLines(st, [ModIdLine(m.modId)]) == ReadState(acc, m.modId);
    assert AppendMod(acc, m.modId, []) == acc;
    ReadUsedFileLines(acc, m.modId, [], m.files);
    assert [] + UsedEntries(m.files) == UsedEntries(m.files);
    ReadCacheLinesAppend(ReadState(acc, m.modId), fileLines, [""]);
    var after := ReadState(AppendMod(acc, m.modId, UsedEntries(m.files)), m.modId);
    assert ReadCacheLine(after, "") == after;
  }

  /** One mod's block, whether or not the mod has entries. */
  lemma ReadModStep(acc: Registry, cur: string, m: ModFiles)
    requires CacheRegistry.Valid(acc) && ValidFiles(m.files)
    requires forall i :: 0 <= i < |acc.mods| ==> acc.mods[i].modId != m.modId
    requires '|' !in m.modId && forall j :: 0 <= j < |m.files| ==> '|' !in m.files[j].filePath
    ensures ReadCacheLines(ReadState(acc, cur), ModLines(m))
              == ReadState(Registry(acc.mods + AppendMod(Empty, m.modId, UsedEntries(m.files)).mods),
                           if |m.files| == 0 then cur else m.modId)
  {
    if |m.files| > 0 {
      ReadModBlock(acc, cur, m);
    } else {
      assert acc.mods + [] == acc.mods;
    }
  }

  /** No mod id of `acc` occurs in `mods`. */
  predicate FreshIds(acc: Registry, mods: seq<ModFiles>) {
    forall i, j :: 0 <= i < |acc.mods| && 0 <= j < |mods| ==> acc.mods[i].modId != mods[j].modId
  }

  /** The mods still to be read, once the first one is. */
  lemma ReadModsTail(acc: Registry, mods: seq<ModFiles>)
    requires CacheRegistry.Valid(Registry(mods)) && Printable(Registry(mods)) && FreshIds(acc, mods)
    requires |mods| > 0
    ensures ValidFiles(mods[0].files) && '|' !in mods[0].modId
    ensures forall j :: 0 <= j < |mods[0].files| ==> '|' !in mods[0].files[j].filePath
    ensures forall i :: 0 <= i < |acc.mods| ==> acc.mods[i].modId != mods[0].modId
    ensures CacheRegistry.Valid(Registry(mods[1..])) && Printable(Registry(mods[1..]))
    ensures FreshIds(Registry(acc.mods + AppendMod(Empty, mods[0].modId, UsedEntries(mods[0].files)).mods), mods[1..])
  {
    assert ValidFiles(mods[0].files);
    var acc' := Registry(acc.mods + AppendMod(Empty, mods[0].modId, UsedEntries(mods[0].files)).mods);
    forall i, j | 0 <= i < |acc'.mods| && 0 <= j < |mods[1..]|
      ensures acc'.mods[i].modId != mods[1..][j].modId
    {
      assert mods[1..][j] == mods[j + 1];
      if i < |acc.mods| { assert acc'.mods[i] == acc.mods[i]; }
      else { assert acc'.mods[i].modId == mods[0].modId; }
    }
  }

  lemma {:induction false} ReadModsLines(acc: Registry, cur: string, mods: seq<ModFiles>)
    requires CacheRegistry.Valid(acc)
    requires CacheRegistry.Valid(Registry(mods)) && Printable(Registry(mods)) && FreshIds(acc, mods)
    ensures ReadCacheLines(ReadState(acc, cur), ModsLines(mods)).reg == Registry(acc.mods + SweepMods(mods))
    decreases |mods|
  {
    if |mods| == 0 {
      assert acc.mods + [] == acc.mods;
    } else {
      var m := mods[0];
      var rest := mods[1..];
      var st := ReadState(acc, cur);
      assert ModsLines(mods) == ModLines(m) + ModsLines(rest);
      ReadCacheLinesAppend(st, ModLines(m), ModsLines(rest));
      var head := AppendMod(Empty, m.modId, UsedEntries(m.files)).mods;
      var acc' := Registry(acc.mods + head);
      var cur' := if |m.files| == 0 then cur else m.modId;
      ReadModsTail(acc, mods);
      ReadModStep(acc, cur, m);
      ReadModsLines(acc', cur', rest);
      var swept := SweepMods(rest);
      assert SweepMods(mods) == head + swept;
      SeqAssoc(acc.mods, head, swept);
    }
  }

  /** Round trip: reading the lines `WriteCache` produced into an empty
      registry gives the swept registry, provided no mod id or path holds a
      `|` or a line break. */
  lemma ReadWriteCache(reg: Registry)
    requires CacheRegistry.Valid(reg) && Printable(reg)
    ensures ReadCache(Empty, WriteCache(reg)) == Sweep(reg)
  {
    var st := ReadState(Empty, "");
    assert Header[0] == '/' && Header[1] == '/';
    assert Header[..2] == "//";
    assert ReadCacheLine(st, Header) == st;
    assert ([Header] + ModsLines(reg.mods))[1..] == ModsLines(reg.mods);
    ReadModsLines(Empty, "", reg.mods);
    assert Empty.mods + SweepMods(reg.mods) == SweepMods(reg.mods);
  }

  // ---------------------------------------------------------------------------
  // The same through the text file
  // ---------------------------------------------------------------------------

  lemma SingleLineConcat(a: string, b: string)
    requires SingleLine(a) && SingleLine(b)
    ensures SingleLine(a + b)
  {
    forall i | 0 <= i < |a + b| ensures !IsLineBreak((a + b)[i]) {
      if i < |a| { assert (a + b)[i] == a[i]; } else { assert (a + b)[i] == b[i - |a|]; }
    }
  }

  lemma {:induction false} UsedFileLinesSingle(files: seq<CachedModFileInfo>)
    requires forall i :: 0 <= i < |files| ==> ValidEntry(files[i]) && SingleLine(files[i].filePath)
    ensures forall i :: 0 <= i < |UsedFileLines(files)| ==> SingleLine(UsedFileLines(files)[i])
    decreases |files|
  {
    if |files| > 0 {
      UsedFileLinesSingle(files[1..]);
      if files[0].isUsed {
        var f := files[0];
        SingleLineConcat("file|", f.filePath);
        SingleLineConcat("file|" + f.filePath, "|");
        assert SingleLine(Format(f.lastModified));
        SingleLineConcat("file|" + f.filePath + "|", Format(f.lastModified));
      }
    }
  }

  lemma {:induction false} ModsLinesSingle(mods: seq<ModFiles>)
    requires forall i :: 0 <= i < |mods| ==> ValidFiles(mods[i].files)
    requires Printable(Registry(mods))
    ensures forall i :: 0 <= i < |ModsLines(mods)| ==> SingleLine(ModsLines(mods)[i])
    decreases |mods|
  {
    if |mods| > 0 {
      var m := mods[0];
      ModsLinesSingle(mods[1..]);
      if |m.files| > 0 {
        UsedFileLinesSingle(m.files);
        SingleLineConcat("mod_id|", m.modId);
        assert SingleLine("");
      }
    }
  }

  /** Round trip through the text file: `ReadCache` over the text `WriteCache`
      wrote gives the swept registry. */
  lemma ReadWriteCacheText(reg: Registry)
    requires CacheRegistry.Valid(reg) && Printable(reg)
    ensures ReadCacheText(Empty, WriteCacheText(reg)) == Sweep(reg)
  {
    ModsLinesSingle(reg.mods);
    assert SingleLine(Header);
    SplitJoinLines(WriteCache(reg));
    ReadWriteCache(reg);
  }

  // ---------------------------------------------------------------------------
  // The sweep seen through the dictionary view
  // ---------------------------------------------------------------------------

  predicate ValidView(v: map<string, CachedModFileInfo>) {
    forall p :: p in v ==> ValidEntry(v[p])
  }

  predicate ValidViews(v: map<string, map<string, CachedModFileInfo>>) {
    forall m :: m in v ==> ValidView(v[m])
  }

  /** The used entries of one mod's dictionary, as they come back. */
  function UsedView(v: map<string, CachedModFileInfo>): map<string, CachedModFileInfo>
    requires ValidView(v)
  {
    map p | p in v && v[p].isUsed :: Swept(v[p])
  }

  /** The nested dictionary after the round trip: each mod keeps its used
      entries, and a mod left with none disappears. */
  function SweptView(v: map<string, map<string, CachedModFileInfo>>): map<string, map<string, CachedModFileInfo>>
    requires ValidViews(v)
  {
    map m | m in v && UsedView(v[m]) != map[] :: UsedView(v[m])
  }

  lemma {:induction false} FilesViewValid(files: seq<CachedModFileInfo>)
    requires forall i :: 0 <= i < |files| ==> ValidEntry(files[i])
    ensures ValidView(FilesView(files))
    decreases |files|
  {
    if |files| > 0 {
      FilesViewValid(files[1..]);
    }
  }

  lemma UsedViewAdd(v: map<string, CachedModFileInfo>, e: CachedModFileInfo)
    requires ValidView(v) && ValidEntry(e) && e.filePath !in v
    ensures ValidView(v[e.filePath := e])
    ensures UsedView(v[e.filePath := e]) == if e.isUsed then UsedView(v)[e.filePath := Swept(e)] else UsedView(v)
  {
  }

  lemma SweptViewAdd(v: map<string, map<string, CachedModFileInfo>>, m: string, files: map<string, CachedModFileInfo>)
    requires ValidViews(v) && ValidView(files) && m !in v
    ensures ValidViews(v[m := files])
    ensures SweptView(v[m := files])
              == if UsedView(files) == map[] then SweptView(v) else SweptView(v)[m := UsedView(files)]
  {
  }

  lemma FilesViewCons(e: CachedModFileInfo, files: seq<CachedModFileInfo>)
    ensures FilesView([e] + files) == FilesView(files)[e.filePath := e]
  {
    assert ([e] + files)[1..] == files;
  }

  lemma ModsViewCons(m: ModFiles, mods: seq<ModFiles>)
    ensures ModsView([m] + mods) == ModsView(mods)[m.modId := FilesView(m.files)]
  {
    assert ([m] + mods)[1..] == mods;
  }

  lemma {:induction false} FilesViewUsedEntries(files: seq<CachedModFileInfo>)
    requires ValidFiles(files)
    ensures ValidView(FilesView(files))
    ensures FilesView(UsedEntries(files)) == UsedView(FilesView(files))
    decreases |files|
  {
    FilesViewValid(files);
    if |files| > 0 {
      var f := files[0];
      var rest := files[1..];
      assert ValidFiles(rest);
      FilesViewUsedEntries(rest);
      var before := FilesView(rest);
      assert f.filePath !in before;
      assert FilesView(files) == before[f.filePath := f];
      UsedViewAdd(before, f);
      var tail := UsedEntries(rest);
      if f.isUsed {
        assert UsedEntries(files) == [Swept(f)] + tail;
        FilesViewCons(Swept(f), tail);
      } else {
        assert UsedEntries(files) == tail;
      }
    }
  }

  /** The first mod of the sweep, in view terms. */
  lemma {:induction false} ModsViewSweepFirst(mods: seq<ModFiles>)
    requires |mods| > 0 && forall i :: 0 <= i < |mods| ==> ValidFiles(mods[i].files)
    ensures ValidView(FilesView(mods[0].files))
    ensures UsedView(FilesView(mods[0].files)) == map[] ==>
              ModsView(SweepMods(mods)) == ModsView(SweepMods(mods[1..]))
    ensures UsedView(FilesView(mods[0].files)) != map[] ==>
              ModsView(SweepMods(mods))
                == ModsView(SweepMods(mods[1..]))[mods[0].modId := UsedView(FilesView(mods[0].files))]
  {
    var m := mods[0];
    assert ValidFiles(m.files);
    FilesViewUsedEntries(m.files);
    var used := UsedEntries(m.files);
    var tail := SweepMods(mods[1..]);
    if |used| > 0 {
      assert used[0].filePath in FilesView(used);
      assert SweepMods(mods) == [ModFiles(m.modId, used)] + tail;
      ModsViewCons(ModFiles(m.modId, used), tail);
    } else {
      assert SweepMods(mods) == tail;
      assert FilesView(used) == map[];
    }
  }

  lemma {:induction false} ModsViewSweepMods(mods: seq<ModFiles>)
    requires DistinctIds(mods) && forall i :: 0 <= i < |mods| ==> ValidFiles(mods[i].files)
    ensures ValidViews(ModsView(mods))
    ensures ModsView(SweepMods(mods)) == SweptView(ModsView(mods))
    decreases |mods|
  {
    if |mods| > 0 {
      var m := mods[0];
      var rest := mods[1..];
      assert DistinctIds(rest) && forall i :: 0 <= i < |rest| ==> ValidFiles(rest[i].files);
      ModsViewSweepMods(rest);
      ModsViewSweepFirst(mods);
      var before := ModsView(rest);
      assert m.modId !in before;
      assert ModsView(mods) == before[m.modId := FilesView(m.files)];
      SweptViewAdd(before, m.modId, FilesView(m.files));
    }
  }

  /** What the round trip keeps, as dictionaries: every mod that had a used
      entry, holding exactly its used entries, each with its time truncated to
      the second and its mark cleared. */
  lemma SweepView(reg: Registry)
    requires CacheRegistry.Valid(reg)
    ensures ValidViews(View(reg))
    ensures View(Sweep(reg)) == SweptView(View(reg))
  {
    ModsViewSweepMods(reg.mods);
  }
}

=== FILE: data_manager.dfy ===
/** The data manager (DataManager.cs): registering the files of a mod into the
    index overlay, the existence query, archive reads, and adding single
    external files. Disk state is an `Env` input; the redirector is the list of
    rules the manager hands it. */
module DataManager {
  import opened Wrappers
  import opened Text
  import opened Paths
  import opened PathHash
  import opened SortedSeq
  import opened IndexModel
  import opened Archive
  import opened CacheRegistry
  import opened ModProcessing

  /** The state of an initialized manager: the index as shipped (which archive
      reads go through), the overlay index being built, the mod file that owns
      each game path, the cache registry, the redirect rules added so far, and
      the archive accessor once one has been created. */
  datatype Manager = Manager(
    pristine: IndexFile,
    modded: IndexFile,
    owners: map<string, ModFile>,
    cache: Registry,
    redirects: seq<Redirect>,
    accessor: Option<ArchiveAccessor>)

  /** Both indexes and the registry keep their shape, and an accessor, once
      made, reads through the shipped index. */
  predicate Consistent(m: Manager) {
    && IndexModel.Valid(m.pristine)
    && IndexModel.Valid(m.modded)
    && CacheRegistry.Valid(m.cache)
    && (m.accessor.Some? ==> m.accessor.value.index == m.pristine)
  }

  datatype ManagerError =
    | BlankArgument            // a mod id or folder that is empty or all white space
    | TargetUnreadable(path: string) // the file serving a modded path cannot be read
    | ArchiveRead(err: ArchiveError)
    | FileMissing(path: string)      // `new FileInfo(path).Length` throws: the file does not exist

  /** One file `Directory.GetFiles` found under a mod folder: its full path and
      `Path.GetRelativePath(folder, path)`. */
  datatype FoundFile = FoundFile(path: string, relativePath: string)

  /** The mod id `AddOrUpdateExternalFile` files its files under. */
  const UnspecifiedModId: string := "unspecified"

  // ---------------------------------------------------------------------------
  // RegisterModFiles, first loop: processing every found file
  // ---------------------------------------------------------------------------

  /** The game path a found file is processed under. */
  function GamePathOf(f: FoundFile): string {
    Slashes(f.relativePath)
  }

  /** The found files that are not skipped `.msg` files, in order. */
  function Kept(cfg: Config, env: Env, found: seq<FoundFile>): (kept: seq<FoundFile>)
    ensures |kept| <= |found|
    ensures forall i :: 0 <= i < |kept| ==> kept[i] in found && !SkipsMsg(cfg, env, kept[i].path)
    decreases |found|
  {
    if |found| == 0 then []
    else
      var init := Kept(cfg, env, found[..|found| - 1]);
      var f := found[|found| - 1];
      if SkipsMsg(cfg, env, f.path) then init else init + [f]
  }

  /** What the first loop leaves behind: the registrations, the cache and the
      redirect rules, one per found file. */
  datatype Batch = Batch(files: seq<ModFile>, cache: Registry, redirects: seq<Redirect>)

  /** `ProcessFile` on every found file in order, keeping the registrations
      that are not `null`. The i-th registration comes from the i-th kept file,
      belongs to `modId` and obeys the path rules of its extension. */
  function ProcessAll(cache: Registry, env: Env, cfg: Config, modId: string, found: seq<FoundFile>): (r: Batch)
    requires CacheRegistry.Valid(cache)
    ensures CacheRegistry.Valid(r.cache)
    ensures |r.redirects| == |found|
    ensures |r.files| == |Kept(cfg, env, found)|
    ensures forall i :: 0 <= i < |r.files| ==>
              var k := Kept(cfg, env, found)[i];
              && r.files[i].modId == modId && r.files[i].sourcePath == k.path
              && FollowsPathRules(cfg, env, k.path, GamePathOf(k), r.files[i])
    decreases |found|
  {
    if |found| == 0 then Batch([], cache, [])
    else
      var init := ProcessAll(cache, env, cfg, modId, found[..|found| - 1]);
      var f := found[|found| - 1];
      var p := ProcessFile(init.cache, env, cfg, f.path, GamePathOf(f), modId);
      var files := match p.modFile case Some(mf) => init.files + [mf] case None => init.files;
      Batch(files, p.cache, init.redirects + [p.redirect])
  }

  // ---------------------------------------------------------------------------
  // RegisterModFiles, second loop: ownership and the index
  // ---------------------------------------------------------------------------

  /** The last of `files` registered under game path `g`, if any. */
  function LastOwner(files: seq<ModFile>, g: string): (r: Option<ModFile>)
    ensures r.Some? ==> r.value in files && r.value.gamePath == g
    decreases |files|
  {
    if |files| == 0 then None
    else if files[|files| - 1].gamePath == g then Some(files[|files| - 1])
    else LastOwner(files[..|files| - 1], g)
  }

  /** The (key, size) pairs the second loop registers, in order. */
  function Registrations(xx: XxHash64, env: Env, files: seq<ModFile>): (regs: seq<(uint64, uint64)>)
    ensures |regs| == |files|
    ensures forall i :: 0 <= i < |files| ==>
              regs[i] == (XXHash64Path(xx, files[i].gamePath), env.size(files[i].targetPath))
    decreases |files|
  {
    if |files| == 0 then []
    else
      var n := |files| - 1;
      Registrations(xx, env, files[..n]) + [(XXHash64Path(xx, files[n].gamePath), env.size(files[n].targetPath))]
  }

  /** The ownership loop: each registration takes its game path over, whether
      or not another mod owned it (last writer wins), and its serving file's
      size is registered as an external file. The owners afterwards are the
      last registration per game path, over the owners from before; the index
      is the batch of registrations applied in order. */
  function AssignOwners(owners: map<string, ModFile>, modded: IndexFile, xx: XxHash64, env: Env, files: seq<ModFile>)
    : (r: (map<string, ModFile>, IndexFile))
    requires IndexModel.Valid(modded)
    ensures IndexModel.Valid(r.1)
    ensures forall g :: g in r.0 <==> g in owners || LastOwner(files, g).Some?
    ensures forall g :: LastOwner(files, g).Some? ==> r.0[g] == LastOwner(files, g).value
    ensures forall g :: LastOwner(files, g).None? && g in owners ==> r.0[g] == owners[g]
    ensures r.1 == RegisterAll(modded, Registrations(xx, env, files))
    decreases |files|
  {
    if |files| == 0 then (owners, modded)
    else
      var n := |files| - 1;
      var prev := AssignOwners(owners, modded, xx, env, files[..n]);
      var f := files[n];
      TakeOver(owners, prev.0, files);
      var reg := (XXHash64Path(xx, f.gamePath), env.size(f.targetPath));
      var next := RegisterExternalFileToIndex(prev.1, xx, f.gamePath, reg.1).0;
      RegisterNext(modded, prev.1, Registrations(xx, env, files[..n]), reg, next);
      (prev.0[f.gamePath := f], next)
  }

  /** One more registration extends the batch `RegisterAll` applies. */
  lemma RegisterNext(modded: IndexFile, prev: IndexFile, regs: seq<(uint64, uint64)>, reg: (uint64, uint64), next: IndexFile)
    requires IndexModel.Valid(modded) && prev == RegisterAll(modded, regs)
    requires next == RegisterExternalHash(prev, reg.0, reg.1).0
    ensures next == RegisterAll(modded, regs + [reg])
  {
    RegisterAllSnoc(modded, regs, reg);
  }

  /** Owners that are the last registration per game path over `owners`
      stay so when one more registration takes its game path over. */
  lemma TakeOver(owners: map<string, ModFile>, prev: map<string, ModFile>, files: seq<ModFile>)
    requires |files| > 0
    requires var init := files[..|files| - 1];
      && (forall g :: g in prev <==> g in owners || LastOwner(init, g).Some?)
      && (forall g :: LastOwner(init, g).Some? ==> prev[g] == LastOwner(init, g).value)
      && (forall g :: LastOwner(init, g).None? && g in owners ==> prev[g] == owners[g])
    ensures var next := prev[files[|files| - 1].gamePath := files[|files| - 1]];
      && (forall g :: g in next <==> g in owners || LastOwner(files, g).Some?)
      && (forall g :: LastOwner(files, g).Some? ==> next[g] == LastOwner(files, g).value)
      && (forall g :: LastOwner(files, g).None? && g in owners ==> next[g] == owners[g])
  {
  }

  /** Every registration's key is external afterwards, with the size of the
      last registration under that key, and is no longer an archived file. */
  lemma {:induction false} RegisteredKeysAreExternal(modded: IndexFile, xx: XxHash64, env: Env, files: seq<ModFile>)
    requires IndexModel.Valid(modded)
    ensures var r := RegisterAll(modded, Registrations(xx, env, files));
      forall i :: 0 <= i < |files| ==>
        var h := XXHash64Path(xx, files[i].gamePath);
        && h in r.externalFileHashes && h !in r.archiveFileHashes
        && ExternalSize(r, h) == LastSize(Registrations(xx, env, files), h)
  {
    var regs := Registrations(xx, env, files);
    RegisterAllProperties(modded, regs);
    forall i | 0 <= i < |files|
      ensures LastSize(regs, XXHash64Path(xx, files[i].gamePath)).Some?
    {
      LastSizeOfMember(regs, i);
    }
  }

  lemma {:induction false} LastSizeOfMember(regs: seq<(uint64, uint64)>, i: nat)
    requires i < |regs|
    ensures LastSize(regs, regs[i].0).Some?
    decreases |regs|
  {
    if i < |regs| - 1 && regs[|regs| - 1].0 != regs[i].0 {
      LastSizeOfMember(regs[..|regs| - 1], i);
    }
  }

  // ---------------------------------------------------------------------------
  // RegisterModFiles
  // ---------------------------------------------------------------------------

  /** `RegisterModFiles(modId, folder)` given the files found under `folder`:
      rejects a blank mod id or folder; otherwise processes every file, hands
      its redirect rules on, gives each kept file's game path to it (last
      writer wins) and registers its size in the overlay. The count is the
      number of files not skipped. The shipped index and the accessor are
      untouched. */
  function RegisterModFiles(m: Manager, env: Env, cfg: Config, xx: XxHash64,
                            modId: string, folder: string, found: seq<FoundFile>)
    : (r: Result<(nat, Manager), ManagerError>)
    requires Consistent(m)
    ensures r.Err? <==> IsBlank(modId) || IsBlank(folder)
    ensures r.Err? ==> r.error == BlankArgument
    ensures r.Ok? ==> var (count, m') := r.value;
      && Consistent(m')
      && count == |Kept(cfg, env, found)|
      && m'.pristine == m.pristine && m'.accessor == m.accessor
      && |m'.redirects| == |m.redirects| + |found| && m'.redirects[..|m.redirects|] == m.redirects
  {
    if IsBlank(modId) || IsBlank(folder) then Err(BlankArgument)
    else
      var batch := ProcessAll(m.cache, env, cfg, modId, found);
      var (owners, modded) := AssignOwners(m.owners, m.modded, xx, env, batch.files);
      Ok((|batch.files|,
          m.(modded := modded, owners := owners, cache := batch.cache, redirects := m.redirects + batch.redirects)))
  }

  /** After registering a mod, every kept file is owned by the mod's last
      registration under its game path, and that path's key is an external
      file and no longer an archived one; any path the mod did not register
      keeps its owner. */
  lemma RegisterModFilesOwnership(m: Manager, env: Env, cfg: Config, xx: XxHash64,
                                  modId: string, folder: string, found: seq<FoundFile>)
    requires Consistent(m) && !IsBlank(modId) && !IsBlank(folder)
    ensures var r := RegisterModFiles(m, env, cfg, xx, modId, folder, found);
      var files := ProcessAll(m.cache, env, cfg, modId, found).files;
      && r.Ok?
      && (forall g :: LastOwner(files, g).Some? ==> g in r.value.1.owners && r.value.1.owners[g] == LastOwner(files, g).value)
      && (forall g :: LastOwner(files, g).None? ==> (g in r.value.1.owners <==> g in m.owners))
      && (forall g :: LastOwner(files, g).None? && g in m.owners ==> r.value.1.owners[g] == m.owners[g])
      && (forall i :: 0 <= i < |files| ==>
            XXHash64Path(xx, files[i].gamePath) in r.value.1.modded.externalFileHashes
            && XXHash64Path(xx, files[i].gamePath) !in r.value.1.modded.archiveFileHashes)
  {
    var files := ProcessAll(m.cache, env, cfg, modId, found).files;
    RegisteredKeysAreExternal(m.modded, xx, env, files);
  }

  // ---------------------------------------------------------------------------
  // FileExists
  // ---------------------------------------------------------------------------

  /** `FileExists(filePath, includeExternal, checkExternalFileExistsOnDisk)`;
      `None` is a null path. A null or empty path does not exist. An external
      key counts when external files are included and, if asked, the file is
      on disk under the data directory; otherwise the answer is whether the
      key is an archived file of the overlay. */
  function FileExists(m: Manager, env: Env, xx: XxHash64, filePath: Option<string>,
                      includeExternal: bool, checkOnDisk: bool): (r: bool)
    requires Consistent(m)
    ensures filePath.None? || (filePath.Some? && |filePath.value| == 0) ==> !r
    ensures filePath.Some? && |filePath.value| > 0 ==>
              var h := XXHash64Path(xx, filePath.value);
              (r <==> || (&& includeExternal && h in m.modded.externalFileHashes
                          && (!checkOnDisk || Combine(env.dataPath, filePath.value) in env.present))
                      || h in m.modded.archiveFileHashes)
  {
    match filePath
    case None => false
    case Some(p) =>
      if |p| == 0 then false
      else
        var h := XXHash64Path(xx, p);
        if includeExternal && BinarySearch(m.modded.externalFileHashes, h) >= 0
           && (!checkOnDisk || Combine(env.dataPath, p) in env.present) then
          true
        else
          BinarySearch(m.modded.archiveFileHashes, h) >= 0
  }

  /** Once a path is registered as external, it exists when external files
      count and the disk is not consulted, under any spelling of the path
      that differs only in case or separators; and it no longer exists as an
      archived file. */
  lemma RegisteredFileExists(m: Manager, env: Env, xx: XxHash64, gamePath: string, size: uint64, query: string)
    requires Consistent(m) && |query| > 0 && SamePath(query, gamePath)
    ensures var m' := m.(modded := RegisterExternalFileToIndex(m.modded, xx, gamePath, size).0);
      && FileExists(m', env, xx, Some(query), true, false)
      && !FileExists(m', env, xx, Some(query), false, false)
      && !FileExists(m', env, xx, Some(query), false, true)
  {
    XXHash64PathIgnoresCaseAndSeparators(xx, query, gamePath);
  }

  // ---------------------------------------------------------------------------
  // Reading files
  // ---------------------------------------------------------------------------

  /** The accessor a read goes through: the existing one, or a fresh one over
      the shipped index. */
  function AccessorOf(m: Manager): (a: ArchiveAccessor)
    ensures m.accessor.None? ==> a == NewArchiveAccessor(m.pristine)
  {
    match m.accessor
    case Some(a) => a
    case None => NewArchiveAccessor(m.pristine)
  }

  /** `GetArchiveFile`: create the accessor over the shipped index on first use,
      then read through it. The result does not depend on the overlay: a file
      is missing exactly when its key is not in the shipped archive list. */
  function GetArchiveFile(m: Manager, xx: XxHash64, fileName: string, disk: map<nat, seq<byte>>, lz4: Lz4Decoder)
    : (r: (Result<seq<byte>, ArchiveError>, Manager))
    requires Consistent(m) && Ready(AccessorOf(m), disk)
    ensures Consistent(r.1) && r.1.accessor.Some? && Ready(AccessorOf(r.1), disk)
    ensures r.1 == m.(accessor := r.1.accessor)
    ensures r.0 == Err(FileNotFound) <==> XXHash64Path(xx, fileName) !in m.pristine.archiveFileHashes
  {
    var (data, acc) := GetFileData(AccessorOf(m), xx, fileName, disk, lz4);
    (data, m.(accessor := Some(acc)))
  }

  /** Archive reads see only the shipped index: two managers that differ in
      their overlay, owners, cache or redirects read the same bytes. */
  lemma ArchiveReadIgnoresOverlay(m: Manager, m2: Manager, xx: XxHash64, fileName: string,
                                  disk: map<nat, seq<byte>>, lz4: Lz4Decoder)
    requires Consistent(m) && Consistent(m2) && Ready(AccessorOf(m), disk)
    requires m2.pristine == m.pristine && m2.accessor == m.accessor
    ensures GetArchiveFile(m, xx, fileName, disk, lz4).0 == GetArchiveFile(m2, xx, fileName, disk, lz4).0
  {
  }

  /** An archive read looks the name up by its key only, so lower-casing the
      name and turning `\` into `/` first reads the same bytes. */
  lemma ArchiveReadOfNormalized(m: Manager, xx: XxHash64, fileName: string,
                                disk: map<nat, seq<byte>>, lz4: Lz4Decoder)
    requires Consistent(m) && Ready(AccessorOf(m), disk)
    ensures GetArchiveFile(m, xx, NormalizePath(fileName), disk, lz4) == GetArchiveFile(m, xx, fileName, disk, lz4)
  {
    XXHash64PathOfNormalized(xx, fileName);
    assert Locate(AccessorOf(m), xx, NormalizePath(fileName)) == Locate(AccessorOf(m), xx, fileName);
  }

  /** `GetModdedOrAchiveFile`: the name is normalised (`\` to `/`, lower
      case); a game path owned by a mod is served from that mod's file, any
      other from the archive. */
  function GetModdedOrAchiveFile(m: Manager, env: Env, xx: XxHash64, fileName: string,
                                 disk: map<nat, seq<byte>>, lz4: Lz4Decoder)
    : (r: (Result<seq<byte>, ManagerError>, Manager))
    requires Consistent(m) && Ready(AccessorOf(m), disk)
    ensures Consistent(r.1) && r.1 == m.(accessor := r.1.accessor)
    ensures var key := NormalizePath(fileName);
      key in m.owners ==>
        && r.1 == m
        && (m.owners[key].targetPath in env.contents ==> r.0 == Ok(env.contents[m.owners[key].targetPath]))
        && (m.owners[key].targetPath !in env.contents ==> r.0 == Err(TargetUnreadable(m.owners[key].targetPath)))
    ensures var key := NormalizePath(fileName);
      key !in m.owners ==>
        (r.0 == Err(ArchiveRead(FileNotFound)) <==> XXHash64Path(xx, fileName) !in m.pristine.archiveFileHashes)
    ensures NormalizePath(fileName) !in m.owners ==>
      var (data, m') := GetArchiveFile(m, xx, fileName, disk, lz4);
      r == (match data case Ok(bytes) => Ok(bytes) case Err(e) => Err(ArchiveRead(e)), m')
  {
    var key := NormalizePath(fileName);
    if key in m.owners then
      var target := m.owners[key].targetPath;
      if target in env.contents then (Ok(env.contents[target]), m)
      else (Err(TargetUnreadable(target)), m)
    else
      NormalizePathIdempotent(fileName);
      ArchiveReadOfNormalized(m, xx, fileName, disk, lz4);
      var (data, m') := GetArchiveFile(m, xx, key, disk, lz4);
      match data
      case Ok(bytes) => (Ok(bytes), m')
      case Err(e) => (Err(ArchiveRead(e)), m')
  }

  /** A game path with an upper-case letter is never the lower-cased form of
      any name, so an owner registered under it cannot be looked up. */
  lemma UpperCaseKeyUnreachable(g: string)
    requires exists i :: 0 <= i < |g| && IsUpperAscii(g[i])
    ensures forall f :: NormalizePath(f) != g
  {
  }

  /** Owners are keyed by the game path as registered while reads look the
      lower-cased name up: a game path registered with an upper-case letter is
      never served from its mod file by name, but read from the archive. */
  lemma UpperCaseOwnerIsNotFound(m: Manager, env: Env, xx: XxHash64, fileName: string,
                                 disk: map<nat, seq<byte>>, lz4: Lz4Decoder)
    requires Consistent(m) && Ready(AccessorOf(m), disk)
    requires forall g :: g in m.owners ==> exists i :: 0 <= i < |g| && IsUpperAscii(g[i])
    ensures GetModdedOrAchiveFile(m, env, xx, fileName, disk, lz4) ==
            (var (data, m') := GetArchiveFile(m, xx, NormalizePath(fileName), disk, lz4);
             (match data case Ok(bytes) => Ok(bytes) case Err(e) => Err(ArchiveRead(e)), m'))
  {
  }

  // ---------------------------------------------------------------------------
  // AddOrUpdateExternalFile
  // ---------------------------------------------------------------------------

  /** Turning `\` into `/` does not change a path's key. */
  lemma SlashesKeepKey(xx: XxHash64, p: string)
    ensures XXHash64Path(xx, Slashes(p)) == XXHash64Path(xx, p)
  {
    assert SamePath(Slashes(p), p) by {
      forall i | 0 <= i < |p| ensures SamePathChar(Slashes(p)[i], p[i]) {
      }
    }
    XXHash64PathIgnoresCaseAndSeparators(xx, Slashes(p), p);
  }

  /** `AddOrUpdateExternalFile(gamePath, fileData)`: the bytes are written to
      the temp directory under the `unspecified` mod, the game path is
      registered as external with the data's length, and the written file is
      then processed like a mod file, which adds its redirect and cache entry;
      the registration it returns is dropped, so no owner is recorded. */
  function AddOrUpdateExternalBytes(m: Manager, env: Env, cfg: Config, xx: XxHash64, gamePath: string, fileData: seq<byte>)
    : (r: Manager)
    requires Consistent(m) && |fileData| < 0x8000_0000
    ensures Consistent(r)
    ensures var h := XXHash64Path(xx, gamePath);
      && ExternalSize(r.modded, h) == Some(|fileData|)
      && h !in r.modded.archiveFileHashes
      && (forall g :: g != h ==> ExternalSize(r.modded, g) == ExternalSize(m.modded, g))
      && (forall g :: g != h ==> ArchiveIndexer(r.modded, g) == ArchiveIndexer(m.modded, g))
    ensures r.pristine == m.pristine && r.owners == m.owners && r.accessor == m.accessor
    ensures |r.redirects| == |m.redirects| + 1 && r.redirects[..|m.redirects|] == m.redirects
  {
    var gp := Slashes(gamePath);
    var temp := TempFilePath(env, gp, UnspecifiedModId);
    var written := env.(present := env.present + {temp}, contents := env.contents[temp := fileData],
                        size := p => if p == temp then |fileData| else env.size(p));
    SlashesKeepKey(xx, gamePath);
    var (modded, _) := RegisterExternalFileToIndex(m.modded, xx, gp, |fileData|);
    var p := ProcessFile(m.cache, written, cfg, temp, gp, UnspecifiedModId);
    m.(modded := modded, cache := p.cache, redirects := m.redirects + [p.redirect])
  }

  /** `AddOrUpdateExternalFile(filePath, gamePath)`: the same with an existing
      file, whose size on disk is registered. Reading the size of a missing
      file throws before anything is registered, so the manager is left as it
      was. */
  function AddOrUpdateExternalPath(m: Manager, env: Env, cfg: Config, xx: XxHash64, filePath: string, gamePath: string)
    : (r: Result<Manager, ManagerError>)
    requires Consistent(m)
    ensures r.Err? <==> filePath !in env.present
    ensures r.Err? ==> r.error == FileMissing(filePath)
    ensures r.Ok? ==> Consistent(r.value)
    ensures r.Ok? ==> var h := XXHash64Path(xx, gamePath);
      && ExternalSize(r.value.modded, h) == Some(env.size(filePath))
      && h !in r.value.modded.archiveFileHashes
      && (forall g :: g != h ==> ExternalSize(r.value.modded, g) == ExternalSize(m.modded, g))
      && (forall g :: g != h ==> ArchiveIndexer(r.value.modded, g) == ArchiveIndexer(m.modded, g))
    ensures r.Ok? ==> r.value.pristine == m.pristine && r.value.owners == m.owners && r.value.accessor == m.accessor
    ensures r.Ok? ==> |r.value.redirects| == |m.redirects| + 1 && r.value.redirects[..|m.redirects|] == m.redirects
  {
    if filePath !in env.present then Err(FileMissing(filePath))
    else
      var gp := Slashes(gamePath);
      SlashesKeepKey(xx, gamePath);
      var (modded, _) := RegisterExternalFileToIndex(m.modded, xx, gp, env.size(filePath));
      var p := ProcessFile(m.cache, env, cfg, filePath, gp, UnspecifiedModId);
      Ok(m.(modded := modded, cache := p.cache, redirects := m.redirects + [p.redirect]))
  }
}

=== FILE: date_time.dfy ===
/** `System.DateTime` as the cache registry uses it: a calendar instant with a
    sub-second part, and its fixed `dd/MM/yyyy HH:mm:ss` text form. */
module DateTimes {
  import opened Wrappers

  /** `ticks` is the sub-second part in 100-nanosecond units. */
  datatype DateTime = DateTime(year: int, month: int, day: int,
                               hour: int, minute: int, second: int, ticks: int)

  const TicksPerSecond: int := 10_000_000

  predicate IsLeapYear(y: int) {
    y % 4 == 0 && (y % 100 != 0 || y % 400 == 0)
  }

  function DaysInMonth(y: int, m: int): int
    requires 1 <= m <= 12
  {
    if m == 2 then (if IsLeapYear(y) then 29 else 28)
    else if m == 4 || m == 6 || m == 9 || m == 11 then 30
    else 31
  }

  /** The instants `DateTime` can represent (years 1 to 9999). */
  predicate Valid(d: DateTime) {
    && 1 <= d.year <= 9999
    && 1 <= d.month <= 12
    && 1 <= d.day <= DaysInMonth(d.year, d.month)
    && 0 <= d.hour < 24 && 0 <= d.minute < 60 && 0 <= d.second < 60
    && 0 <= d.ticks < TicksPerSecond
  }

  /** `new DateTime(Year, Month, Day, Hour, Minute, Second, Kind)`: the same
      instant with its sub-second part dropped. */
  function TruncateToSeconds(d: DateTime): (r: DateTime)
    requires Valid(d)
    ensures Valid(r) && r.ticks == 0
    ensures r.(ticks := d.ticks) == d
  {
    d.(ticks := 0)
  }

  /** Two instants are equal at seconds precision exactly when everything but
      their sub-second parts agrees. */
  lemma TruncateEqualIff(a: DateTime, b: DateTime)
    requires Valid(a) && Valid(b)
    ensures TruncateToSeconds(a) == TruncateToSeconds(b) <==> a.(ticks := 0) == b.(ticks := 0)
  {
  }

  // ---------------------------------------------------------------------------
  // Digits
  // ---------------------------------------------------------------------------

  predicate IsDigit(c: char) {
    '0' <= c <= '9'
  }

  function DigitChar(n: int): (c: char)
    requires 0 <= n < 10
    ensures IsDigit(c)
  {
    ('0' as int + n) as char
  }

  function DigitValue(c: char): (n: int)
    requires IsDigit(c)
    ensures 0 <= n < 10 && DigitChar(n) == c
  {
    c as int - '0' as int
  }

  /** `n` in exactly `width` decimal digits, zero-padded. */
  function Digits(n: nat, width: nat): (s: string)
    ensures |s| == width
    ensures forall i :: 0 <= i < |s| ==> IsDigit(s[i])
  {
    if width == 0 then "" else Digits(n / 10, width - 1) + [DigitChar(n % 10)]
  }

  /** The number a string of decimal digits spells. */
  function DigitsValue(s: string): nat
    requires forall i :: 0 <= i < |s| ==> IsDigit(s[i])
  {
    if |s| == 0 then 0 else DigitsValue(s[..|s| - 1]) * 10 + DigitValue(s[|s| - 1])
  }

  function Pow10(n: nat): (r: nat)
    ensures r >= 1
  {
    if n == 0 then 1 else 10 * Pow10(n - 1)
  }

  lemma {:induction false} DigitsRoundTrip(n: nat, width: nat)
    requires n < Pow10(width)
    ensures DigitsValue(Digits(n, width)) == n
    decreases width
  {
    if width > 0 {
      var s := Digits(n, width);
      assert s[..width - 1] == Digits(n / 10, width - 1);
      DigitsRoundTrip(n / 10, width - 1);
    }
  }

  lemma {:induction false} DigitsOfValue(s: string)
    requires forall i :: 0 <= i < |s| ==> IsDigit(s[i])
    ensures DigitsValue(s) < Pow10(|s|)
    ensures Digits(DigitsValue(s), |s|) == s
    decreases |s|
  {
    if |s| > 0 {
      var init := s[..|s| - 1];
      DigitsOfValue(init);
      var v := DigitsValue(s);
      assert v / 10 == DigitsValue(init);
      assert v % 10 == DigitValue(s[|s| - 1]);
      assert init + [s[|s| - 1]] == s;
    }
  }

  // ---------------------------------------------------------------------------
  // The "dd/MM/yyyy HH:mm:ss" format
  // ---------------------------------------------------------------------------

  /** `DateTime.ToString("dd/MM/yyyy HH:mm:ss")` with `/` and `:` as the date
      and time separators. */
  function Format(d: DateTime): (s: string)
    requires Valid(d)
    ensures |s| == 19
    ensures forall i :: 0 <= i < |s| ==> IsDigit(s[i]) || s[i] in "/ :"
  {
    Digits(d.day, 2) + "/" + Digits(d.month, 2) + "/" + Digits(d.year, 4) + " "
    + Digits(d.hour, 2) + ":" + Digits(d.minute, 2) + ":" + Digits(d.second, 2)
  }

  /** Positions of the separators in the format. */
  predicate IsSeparatorPosition(i: int) {
    i == 2 || i == 5 || i == 10 || i == 13 || i == 16
  }

  /** The shape of the format: digits everywhere except the five separators. */
  predicate HasFormatShape(s: string) {
    && |s| == 19
    && s[2] == '/' && s[5] == '/' && s[10] == ' ' && s[13] == ':' && s[16] == ':'
    && forall i :: 0 <= i < 19 && !IsSeparatorPosition(i) ==> IsDigit(s[i])
  }

  /** The instant the digit fields of a string of the format's shape spell. */
  function FieldsOf(s: string): DateTime
    requires HasFormatShape(s)
  {
    DateTime(DigitsValue(s[6..10]), DigitsValue(s[3..5]), DigitsValue(s[0..2]),
             DigitsValue(s[11..13]), DigitsValue(s[14..16]), DigitsValue(s[17..19]), 0)
  }

  /** A string of the format's shape is the format of the instant it spells. */
  lemma FormatFieldsOf(s: string)
    requires HasFormatShape(s) && Valid(FieldsOf(s))
    ensures Format(FieldsOf(s)) == s
  {
    DigitsOfValue(s[0..2]);
    DigitsOfValue(s[3..5]);
    DigitsOfValue(s[6..10]);
    DigitsOfValue(s[11..13]);
    DigitsOfValue(s[14..16]);
    DigitsOfValue(s[17..19]);
    var f := Format(FieldsOf(s));
    forall i | 0 <= i < 19 ensures f[i] == s[i] {
      if i < 2 { assert f[i] == s[0..2][i]; }
      else if i < 5 { if i > 2 { assert f[i] == s[3..5][i - 3]; } }
      else if i < 10 { if i > 5 { assert f[i] == s[6..10][i - 6]; } }
      else if i < 13 { if i > 10 { assert f[i] == s[11..13][i - 11]; } }
      else if i < 16 { if i > 13 { assert f[i] == s[14..16][i - 14]; } }
      else if i > 16 { assert f[i] == s[17..19][i - 17]; }
    }
  }

  /** `DateTime.TryParseExact(s, "dd/MM/yyyy HH:mm:ss")`: only the exact shape
      naming a real instant is accepted; the result has no sub-second part and
      prints back to `s`. */
  function Parse(s: string): (r: Option<DateTime>)
    ensures r.Some? ==> Valid(r.value) && r.value.ticks == 0 && Format(r.value) == s
  {
    if !HasFormatShape(s) then None
    else if Valid(FieldsOf(s)) then
      FormatFieldsOf(s);
      Some(FieldsOf(s))
    else None
  }

  /** Printing then parsing keeps the instant to the second. */
  lemma ParseFormat(d: DateTime)
    requires Valid(d)
    ensures Parse(Format(d)) == Some(TruncateToSeconds(d))
  {
    var s := Format(d);
    assert s[0..2] == Digits(d.day, 2);
    assert s[3..5] == Digits(d.month, 2);
    assert s[6..10] == Digits(d.year, 4);
    assert s[11..13] == Digits(d.hour, 2);
    assert s[14..16] == Digits(d.minute, 2);
    assert s[17..19] == Digits(d.second, 2);
    DigitsRoundTrip(d.day, 2);
    DigitsRoundTrip(d.month, 2);
    DigitsRoundTrip(d.year, 4);
    DigitsRoundTrip(d.hour, 2);
    DigitsRoundTrip(d.minute, 2);
    DigitsRoundTrip(d.second, 2);
  }
}

=== FILE: index_model.dfy ===
/** The virtual file index and its external-file overlay (DataManager.cs,
    `RegisterExternalFileToIndex` and `RemoveArchiveFileFromIndex`). */
module IndexModel {
  import opened Wrappers
  import opened PathHash
  import opened SortedSeq

  /** Where an archived file's bytes live: a chunk, an offset into that chunk's
      decompressed bytes, and a length. `NoChunk` marks an empty file. */
  datatype FileToChunkIndexer = FileToChunkIndexer(
    chunkEntryIndex: int,
    offsetIntoDecompressedChunk: nat,
    fileSize: nat)

  /** A block stored at `fileOffset` in archive `data.<dataFileNumber>`; it is
      raw when `size == uncompressedSize` and LZ4-compressed otherwise. */
  datatype DataChunk = DataChunk(
    fileOffset: nat,
    size: nat,
    uncompressedSize: nat,
    dataFileNumber: nat)

  /** The index manifest (`data.i`). `archiveFileHashes` is parallel to
      `fileToChunkIndexers`, `externalFileHashes` to `externalFileSizes`. */
  datatype IndexFile = IndexFile(
    codename: string,
    archiveFileHashes: seq<uint64>,
    fileToChunkIndexers: seq<FileToChunkIndexer>,
    chunks: seq<DataChunk>,
    externalFileHashes: seq<uint64>,
    externalFileSizes: seq<uint64>,
    numArchives: nat)

  /** The chunk index of a zero-byte file. */
  const NoChunk: int := -1

  /** The shape every index keeps: both key lists ascending without duplicates,
      each as long as its parallel array. */
  predicate Valid(ix: IndexFile) {
    && StrictlySorted(ix.archiveFileHashes)
    && StrictlySorted(ix.externalFileHashes)
    && |ix.archiveFileHashes| == |ix.fileToChunkIndexers|
    && |ix.externalFileHashes| == |ix.externalFileSizes|
  }

  /** No key is both external and archived: the overlay has one authoritative
      location per key. */
  predicate ExternalWins(ix: IndexFile) {
    forall h :: h in ix.externalFileHashes ==> h !in ix.archiveFileHashes
  }

  /** The external size recorded for `h`, if `h` is an external file. */
  function ExternalSize(ix: IndexFile, h: uint64): (r: Option<uint64>)
    requires Valid(ix)
    ensures r.Some? <==> h in ix.externalFileHashes
  {
    var i := BinarySearch(ix.externalFileHashes, h);
    if i >= 0 then Some(ix.externalFileSizes[i]) else None
  }

  /** The archive location recorded for `h`, if `h` is an archived file. */
  function ArchiveIndexer(ix: IndexFile, h: uint64): (r: Option<FileToChunkIndexer>)
    requires Valid(ix)
    ensures r.Some? <==> h in ix.archiveFileHashes
  {
    var i := BinarySearch(ix.archiveFileHashes, h);
    if i >= 0 then Some(ix.fileToChunkIndexers[i]) else None
  }

  /** `RemoveArchiveFileFromIndex`: drop `h` and its indexer, if archived. */
  function RemoveArchiveFileFromIndex(ix: IndexFile, h: uint64): (r: IndexFile)
    requires Valid(ix)
    ensures Valid(r)
    ensures h !in r.archiveFileHashes
    ensures forall i :: 0 <= i < |ix.archiveFileHashes| && ix.archiveFileHashes[i] == h ==>
              && r.archiveFileHashes == RemoveAt(ix.archiveFileHashes, i)
              && r.fileToChunkIndexers == RemoveAt(ix.fileToChunkIndexers, i)
    ensures h !in ix.archiveFileHashes ==> r == ix
    ensures forall y :: y in r.archiveFileHashes <==> y in ix.archiveFileHashes && y != h
    ensures r == ix.(archiveFileHashes := r.archiveFileHashes, fileToChunkIndexers := r.fileToChunkIndexers)
  {
    var i := BinarySearch(ix.archiveFileHashes, h);
    if i > -1 then
      RemoveAtStrictlySorted(ix.archiveFileHashes, i);
      ix.(archiveFileHashes := RemoveAt(ix.archiveFileHashes, i),
          fileToChunkIndexers := RemoveAt(ix.fileToChunkIndexers, i))
    else
      ix
  }

  /** The external lists after inserting or updating `h` with `size`, and whether
      `h` was new. */
  function UpsertExternal(ix: IndexFile, h: uint64, size: uint64): (r: (IndexFile, bool))
    requires Valid(ix)
    ensures Valid(r.0)
    ensures r.1 <==> h !in ix.externalFileHashes
    ensures r.0 == ix.(externalFileHashes := r.0.externalFileHashes, externalFileSizes := r.0.externalFileSizes)
    ensures forall y :: y in r.0.externalFileHashes <==> y in ix.externalFileHashes || y == h
    ensures r.1 ==> |r.0.externalFileHashes| == |ix.externalFileHashes| + 1
    ensures r.1 ==> forall i :: 0 <= i < |r.0.externalFileHashes| && r.0.externalFileHashes[i] == h ==>
              && r.0.externalFileHashes == InsertAt(ix.externalFileHashes, i, h)
              && r.0.externalFileSizes == InsertAt(ix.externalFileSizes, i, size)
    ensures !r.1 ==> r.0.externalFileHashes == ix.externalFileHashes
    ensures !r.1 ==> forall i :: 0 <= i < |ix.externalFileHashes| && ix.externalFileHashes[i] == h ==>
              r.0.externalFileSizes == ix.externalFileSizes[i := size]
  {
    var idx := BinarySearch(ix.externalFileHashes, h);
    if idx < 0 then
      var (hashes, p) := AddSorted(ix.externalFileHashes, h);
      OnlyAt(hashes, p);
      (ix.(externalFileHashes := hashes, externalFileSizes := InsertAt(ix.externalFileSizes, p, size)), true)
    else
      OnlyAt(ix.externalFileHashes, idx);
      (ix.(externalFileSizes := ix.externalFileSizes[idx := size]), false)
  }

  /** `RegisterExternalFileToIndex` on a key: upsert the external entry, then
      remove the key from the archive list. The flag is true when the key was
      added and false when only its size was overwritten. */
  function RegisterExternalHash(ix: IndexFile, h: uint64, size: uint64): (r: (IndexFile, bool))
    requires Valid(ix)
    ensures Valid(r.0)
    ensures r.1 <==> h !in ix.externalFileHashes
    ensures h in r.0.externalFileHashes && h !in r.0.archiveFileHashes
    ensures ExternalSize(r.0, h) == Some(size)
    ensures forall g :: g != h ==> ExternalSize(r.0, g) == ExternalSize(ix, g)
    ensures forall g :: g != h ==> ArchiveIndexer(r.0, g) == ArchiveIndexer(ix, g)
    ensures r.0 == RemoveArchiveFileFromIndex(UpsertExternal(ix, h, size).0, h)
    ensures r.0.codename == ix.codename && r.0.chunks == ix.chunks && r.0.numArchives == ix.numArchives
    ensures ExternalWins(ix) ==> ExternalWins(r.0)
  {
    var (upserted, added) := UpsertExternal(ix, h, size);
    var r := RemoveArchiveFileFromIndex(upserted, h);
    UpsertLookups(ix, h, size);
    RemoveLookups(upserted, h);
    (r, added)
  }

  /** `RegisterExternalFileToIndex(gamePath, fileSize)`. */
  function RegisterExternalFileToIndex(ix: IndexFile, xx: XxHash64, gamePath: string, size: uint64): (r: (IndexFile, bool))
    requires Valid(ix)
    ensures Valid(r.0)
    ensures var h := XXHash64Path(xx, gamePath);
      && (r.1 <==> h !in ix.externalFileHashes)
      && ExternalSize(r.0, h) == Some(size) && h !in r.0.archiveFileHashes
      && (forall g :: g != h ==> ExternalSize(r.0, g) == ExternalSize(ix, g))
      && (forall g :: g != h ==> ArchiveIndexer(r.0, g) == ArchiveIndexer(ix, g))
  {
    RegisterExternalHash(ix, XXHash64Path(xx, gamePath), size)
  }

  // ---------------------------------------------------------------------------
  // Lookups after the two edits
  // ---------------------------------------------------------------------------

  lemma UpsertLookups(ix: IndexFile, h: uint64, size: uint64)
    requires Valid(ix)
    ensures ExternalSize(UpsertExternal(ix, h, size).0, h) == Some(size)
    ensures forall g :: g != h ==> ExternalSize(UpsertExternal(ix, h, size).0, g) == ExternalSize(ix, g)
  {
    var u := UpsertExternal(ix, h, size).0;
    var e, e' := ix.externalFileHashes, u.externalFileHashes;
    var j := BinarySearch(e', h);
    if h !in e {
      assert u.externalFileSizes == InsertAt(ix.externalFileSizes, j, size);
    } else {
      var k := BinarySearch(e, h);
      StrictlySortedUnique(e, j, k);
    }
    forall g: uint64 | g != h ensures ExternalSize(u, g) == ExternalSize(ix, g) {
      UpsertLookupOther(ix, h, size, g);
    }
  }

  lemma UpsertLookupOther(ix: IndexFile, h: uint64, size: uint64, g: uint64)
    requires Valid(ix) && g != h
    ensures ExternalSize(UpsertExternal(ix, h, size).0, g) == ExternalSize(ix, g)
  {
    var u := UpsertExternal(ix, h, size).0;
    var e, e' := ix.externalFileHashes, u.externalFileHashes;
    if g in e {
      var k := BinarySearch(e, g);
      var k' := BinarySearch(e', g);
      if h !in e {
        var p := BinarySearch(e', h);
        assert e' == InsertAt(e, p, h) && u.externalFileSizes == InsertAt(ix.externalFileSizes, p, size);
        InsertedLookup(e, ix.externalFileSizes, p, h, size, k, k');
      } else {
        assert e' == e;
        StrictlySortedUnique(e, k, k');
        var q := BinarySearch(e, h);
        assert u.externalFileSizes == ix.externalFileSizes[q := size];
      }
    }
  }

  /** A key at position `k` before an insertion at `p` is found at `k'` after
      it with the same parallel value. */
  lemma InsertedLookup<V>(e: seq<uint64>, vs: seq<V>, p: nat, h: uint64, v: V, k: nat, k': nat)
    requires |e| == |vs| && p <= |e| && k < |e|
    requires StrictlySorted(InsertAt(e, p, h)) && k' < |e| + 1
    requires InsertAt(e, p, h)[k'] == e[k]
    ensures InsertAt(vs, p, v)[k'] == vs[k]
  {
    var e' := InsertAt(e, p, h);
    if k < p {
      StrictlySortedUnique(e', k, k');
    } else {
      StrictlySortedUnique(e', k + 1, k');
    }
  }

  lemma RemoveLookups(ix: IndexFile, h: uint64)
    requires Valid(ix)
    ensures forall g :: g != h ==> ArchiveIndexer(RemoveArchiveFileFromIndex(ix, h), g) == ArchiveIndexer(ix, g)
    ensures forall g :: ExternalSize(RemoveArchiveFileFromIndex(ix, h), g) == ExternalSize(ix, g)
  {
    forall g: uint64 | g != h ensures ArchiveIndexer(RemoveArchiveFileFromIndex(ix, h), g) == ArchiveIndexer(ix, g) {
      RemoveLookupOther(ix, h, g);
    }
  }

  lemma RemoveLookupOther(ix: IndexFile, h: uint64, g: uint64)
    requires Valid(ix) && g != h
    ensures ArchiveIndexer(RemoveArchiveFileFromIndex(ix, h), g) == ArchiveIndexer(ix, g)
  {
    var r := RemoveArchiveFileFromIndex(ix, h);
    var a, a' := ix.archiveFileHashes, r.archiveFileHashes;
    if h !in a {
      assert r == ix;
    } else if g !in a {
      assert g !in a';
    } else {
      var p := BinarySearch(a, h);
      var k := BinarySearch(a, g);
      assert a' == RemoveAt(a, p) && r.fileToChunkIndexers == RemoveAt(ix.fileToChunkIndexers, p);
      var k' := BinarySearch(a', g);
      RemovedLookup(a, ix.fileToChunkIndexers, p, k, k');
    }
  }

  /** A key at position `k` before the removal at `p` is found at `k'` after
      it with the same parallel value. */
  lemma RemovedLookup<V>(a: seq<uint64>, vs: seq<V>, p: nat, k: nat, k': nat)
    requires |a| == |vs| && p < |a| && k < |a| && k != p
    requires StrictlySorted(RemoveAt(a, p)) && k' < |a| - 1 && RemoveAt(a, p)[k'] == a[k]
    ensures RemoveAt(vs, p)[k'] == vs[k]
  {
    var j := if k < p then k else k - 1;
    StrictlySortedUnique(RemoveAt(a, p), j, k');
  }

  // ---------------------------------------------------------------------------
  // Properties of registration
  // ---------------------------------------------------------------------------

  /** Registering a key that is already external overwrites its size only:
      both lists keep their lengths and the flag is false. */
  lemma RegisterExistingUpdatesSize(ix: IndexFile, h: uint64, size: uint64)
    requires Valid(ix) && h in ix.externalFileHashes
    ensures var (r, added) := RegisterExternalHash(ix, h, size);
      && !added
      && r.externalFileHashes == ix.externalFileHashes
      && |r.externalFileSizes| == |ix.externalFileSizes|
      && forall i :: 0 <= i < |ix.externalFileHashes| ==>
           r.externalFileSizes[i] == (if ix.externalFileHashes[i] == h then size else ix.externalFileSizes[i])
  {
    var r := RegisterExternalHash(ix, h, size).0;
    var k := BinarySearch(ix.externalFileHashes, h);
    assert r.externalFileSizes == ix.externalFileSizes[k := size];
    forall i | 0 <= i < |ix.externalFileHashes| && ix.externalFileHashes[i] == h ensures i == k {
      StrictlySortedUnique(ix.externalFileHashes, i, k);
    }
  }

  /** Registering the same key and size twice reports "updated" the second time
      and leaves the index as the first call left it. */
  lemma {:induction false} RegisterTwice(ix: IndexFile, h: uint64, size: uint64)
    requires Valid(ix)
    ensures var r1 := RegisterExternalHash(ix, h, size).0;
      RegisterExternalHash(r1, h, size) == (r1, false)
  {
    var r1 := RegisterExternalHash(ix, h, size).0;
    var k := BinarySearch(r1.externalFileHashes, h);
    assert r1.externalFileSizes[k] == size;
    assert r1.externalFileSizes[k := size] == r1.externalFileSizes;
  }

  /** Applying a batch of registrations in order. */
  function RegisterAll(ix: IndexFile, regs: seq<(uint64, uint64)>): (r: IndexFile)
    requires Valid(ix)
    ensures Valid(r)
    decreases |regs|
  {
    if |regs| == 0 then ix
    else
      var n := |regs| - 1;
      RegisterExternalHash(RegisterAll(ix, regs[..n]), regs[n].0, regs[n].1).0
  }

  /** The size registered last for `h` in `regs`, if `h` occurs there. */
  function LastSize(regs: seq<(uint64, uint64)>, h: uint64): Option<uint64>
    decreases |regs|
  {
    if |regs| == 0 then None
    else if regs[|regs| - 1].0 == h then Some(regs[|regs| - 1].1)
    else LastSize(regs[..|regs| - 1], h)
  }

  /** After any batch of registrations: the index keeps its shape and the
      overlay precedence, every registered key is external with the size it
      was registered with last and is absent from the archive list, and every
      other key keeps its external size and archive location. */
  lemma {:induction false} RegisterAllProperties(ix: IndexFile, regs: seq<(uint64, uint64)>)
    requires Valid(ix)
    ensures ExternalWins(ix) ==> ExternalWins(RegisterAll(ix, regs))
    ensures forall h :: ExternalSize(RegisterAll(ix, regs), h) ==
              (match LastSize(regs, h) case Some(s) => Some(s) case None => ExternalSize(ix, h))
    ensures forall h :: LastSize(regs, h).Some? ==> h !in RegisterAll(ix, regs).archiveFileHashes
    ensures forall h :: LastSize(regs, h).None? ==> ArchiveIndexer(RegisterAll(ix, regs), h) == ArchiveIndexer(ix, h)
  {
    RegisterAllWins(ix, regs);
    forall h: uint64
      ensures ExternalSize(RegisterAll(ix, regs), h) ==
                (match LastSize(regs, h) case Some(s) => Some(s) case None => ExternalSize(ix, h))
      ensures LastSize(regs, h).Some? ==> h !in RegisterAll(ix, regs).archiveFileHashes
      ensures LastSize(regs, h).None? ==> ArchiveIndexer(RegisterAll(ix, regs), h) == ArchiveIndexer(ix, h)
    {
      RegisterAllKey(ix, regs, h);
    }
  }

  lemma {:induction false} RegisterAllWins(ix: IndexFile, regs: seq<(uint64, uint64)>)
    requires Valid(ix)
    ensures ExternalWins(ix) ==> ExternalWins(RegisterAll(ix, regs))
    decreases |regs|
  {
    if |regs| > 0 {
      RegisterAllWins(ix, regs[..|regs| - 1]);
    }
  }

  /** What a batch of registrations does to one key. */
  lemma {:induction false} RegisterAllKey(ix: IndexFile, regs: seq<(uint64, uint64)>, h: uint64)
    requires Valid(ix)
    ensures ExternalSize(RegisterAll(ix, regs), h) ==
              (match LastSize(regs, h) case Some(s) => Some(s) case None => ExternalSize(ix, h))
    ensures LastSize(regs, h).Some? ==> h !in RegisterAll(ix, regs).archiveFileHashes
    ensures LastSize(regs, h).None? ==> ArchiveIndexer(RegisterAll(ix, regs), h) == ArchiveIndexer(ix, h)
    decreases |regs|
  {
    if |regs| > 0 {
      var n := |regs| - 1;
      var init := regs[..n];
      RegisterAllKey(ix, init, h);
      RegisterKeyStep(ix, RegisterAll(ix, init), regs[n].0, regs[n].1, LastSize(init, h), h);
    }
  }

  /** One registration step, for one key. */
  lemma RegisterKeyStep(ix: IndexFile, mid: IndexFile, g: uint64, size: uint64, before: Option<uint64>, h: uint64)
    requires Valid(ix) && Valid(mid)
    requires ExternalSize(mid, h) == (match before case Some(s) => Some(s) case None => ExternalSize(ix, h))
    requires before.Some? ==> h !in mid.archiveFileHashes
    requires before.None? ==> ArchiveIndexer(mid, h) == ArchiveIndexer(ix, h)
    ensures var r := RegisterExternalHash(mid, g, size).0;
      var after := if h == g then Some(size) else before;
      && ExternalSize(r, h) == (match after case Some(s) => Some(s) case None => ExternalSize(ix, h))
      && (after.Some? ==> h !in r.archiveFileHashes)
      && (after.None? ==> ArchiveIndexer(r, h) == ArchiveIndexer(ix, h))
  {
    var r := RegisterExternalHash(mid, g, size).0;
    if h != g && before.Some? {
      assert ArchiveIndexer(mid, h).None?;
      assert ArchiveIndexer(r, h).None?;
    }
  }

  /** Registering one more pair after a batch is the longer batch. */
  lemma RegisterAllSnoc(ix: IndexFile, regs: seq<(uint64, uint64)>, last: (uint64, uint64))
    requires Valid(ix)
    ensures RegisterAll(ix, regs + [last]) == RegisterExternalHash(RegisterAll(ix, regs), last.0, last.1).0
  {
    assert (regs + [last])[..|regs|] == regs;
  }
}

=== FILE: mod_processing.dfy ===
/** How the data manager turns one file of a mod into a registration
    (DataManager.cs, `ProcessFile` and the three converters it dispatches to):
    which game path the file is registered under, which file on disk serves
    it, and what the mod file cache records about it. */
module ModProcessing {
  import opened Wrappers
  import opened Text
  import opened Paths
  import opened PathHash
  import opened DateTimes
  import opened CacheRegistry

  /** A point in time `File.GetLastWriteTime` can return. */
  type Instant = d: DateTime | DateTimes.Valid(d) witness DateTime(1, 1, 1, 0, 0, 0, 0)

  /** The configuration switches that steer processing. */
  datatype Config = Config(autoUpgradeMInfo: bool, autoConvertJsonToMsg: bool, autoConvertXmlToBxm: bool)

  /** A parsed `.minfo` model info: its magic (a build date) and its remaining
      fields, which the loader never looks at. */
  datatype ModelInfo = ModelInfo(magic: int, fields: seq<byte>)

  /** What the loader observes of the machine. Everything here is an input:
      the model never reads a disk. */
  datatype Env = Env(
    dataPath: string,                   // the game's `data` directory
    tempPath: string,                   // the loader's `temp` directory
    present: set<string>,               // the paths `File.Exists` reports
    lastWrite: string -> Instant,       // `File.GetLastWriteTime`
    size: string -> uint64,             // `FileInfo.Length`
    contents: map<string, seq<byte>>,   // `File.ReadAllBytes` of the files that can be read
    converts: string -> bool,           // converting that file (JSON to MessagePack, XML to binary XML) succeeds
    minfo: string -> Option<ModelInfo>) // reading and parsing that `.minfo`; `None` when either throws,
                                        // and when an outdated one's upgraded copy fails to serialise or write

  /** `ModFile`: which mod a file comes from, where it was found, the game path
      it is registered under, and the file on disk that serves that path. */
  datatype ModFile = ModFile(modId: string, sourcePath: string, gamePath: string, targetPath: string)

  /** One redirector rule: reads of `from` are served by `to`. */
  datatype Redirect = Redirect(from: string, to: string)

  /** What processing one file produced: the registration (none when the file
      is skipped), the cache afterwards, and the redirect rule added. */
  datatype Processed = Processed(modFile: Option<ModFile>, cache: Registry, redirect: Redirect)

  /** `ModelInfo` magics below this predate the game's 1.1.1 format. */
  const MInfoMagicThreshold: int := 20240213

  /** The magic an outdated `.minfo` is rewritten with. */
  const UpgradedMagic: int := 10000_01_01

  // ---------------------------------------------------------------------------
  // Paths
  // ---------------------------------------------------------------------------

  /** `GetTempFilePathForMod`: `<temp>/<mod id>/<game path>`. The
      three-argument `Path.Combine` agrees with combining twice. */
  function TempFilePath(env: Env, gamePath: string, modId: string): string {
    Combine(Combine(env.tempPath, modId), gamePath)
  }

  /** `AddRedirectPath(Path.Combine(dataPath, gamePath), target)`: both sides
      with `/` turned into `\`. */
  function RedirectFor(env: Env, gamePath: string, target: string): (r: Redirect)
    ensures '/' !in r.from && '/' !in r.to
  {
    Redirect(ReplaceChar(Combine(env.dataPath, gamePath), '/', '\\'), ReplaceChar(target, '/', '\\'))
  }

  /** The game path a `.json` file is registered under. */
  function MsgGamePath(gamePath: string): string {
    Slashes(ChangeExtension(gamePath, ".msg"))
  }

  /** The game path a converted `.xml` file is registered under; the
      `.bxm.xml` names some tools produce count as `.xml`. */
  function BxmGamePath(gamePath: string): string {
    Slashes(ChangeExtension(ReplaceAll(gamePath, ".bxm.xml", ".xml"), ".bxm"))
  }

  /** A `.json` file is registered under the same stem with `.msg`. */
  lemma JsonRegisteredAsMsg(stem: string)
    ensures MsgGamePath(stem + ".json") == Slashes(stem) + ".msg"
  {
    SwapExtension(stem, ".json", ".msg");
    ReplaceCharAppend(stem, ".msg", '\\', '/');
  }

  /** A converted `foo.xml` and a converted `foo.bxm.xml` are both registered
      as `foo.bxm`, for a stem without dots. */
  lemma XmlRegisteredAsBxm(stem: string)
    requires '.' !in stem
    ensures BxmGamePath(stem + ".xml") == Slashes(stem) + ".bxm"
    ensures BxmGamePath(stem + ".bxm.xml") == Slashes(stem) + ".bxm"
  {
    ReplaceAllPrefix(stem, ".xml", ".bxm.xml", ".xml");
    assert ReplaceAll(".xml", ".bxm.xml", ".xml") == ".xml";
    ReplaceAllPrefix(stem, ".bxm.xml", ".bxm.xml", ".xml");
    var whole := ".bxm.xml";
    assert whole[..|whole|] == whole;
    assert ReplaceAll(whole, whole, ".xml") == ".xml";
    SwapExtension(stem, ".xml", ".bxm");
    ReplaceCharAppend(stem, ".bxm", '\\', '/');
  }

  // ---------------------------------------------------------------------------
  // Cache effects
  // ---------------------------------------------------------------------------

  /** After handling a file of `modId` at `gamePath` whose source was last
      written at `t`: its entry is present, marked used and current to the
      second, and every other entry is as it was. */
  ghost predicate RecordsUsed(before: Registry, after: Registry, modId: string, gamePath: string, t: Instant) {
    && Lookup(after, modId, Slashes(gamePath)).Some?
    && Lookup(after, modId, Slashes(gamePath)).value.isUsed
    && Lookup(after, modId, Slashes(gamePath)).value.lastModified.(ticks := 0) == t.(ticks := 0)
    && forall id, p :: (id != modId || p != Slashes(gamePath)) ==> Lookup(after, id, p) == Lookup(before, id, p)
  }

  lemma AddUsedEntryRecords(cache: Registry, modId: string, gamePath: string, t: Instant)
    requires CacheRegistry.Valid(cache)
    ensures RecordsUsed(cache, AddUsedEntry(cache, modId, gamePath, t), modId, gamePath, t)
  {
    var path := Slashes(gamePath);
    LookupInStore(View(cache), modId, path, CachedModFileInfo(path, t, true));
  }

  lemma MarkUsedRecords(cache: Registry, modId: string, gamePath: string, t: Instant)
    requires CacheRegistry.Valid(cache) && TryGetFileIfUpToDate(cache, modId, gamePath, t).Some?
    ensures RecordsUsed(cache, MarkUsed(cache, modId, Slashes(gamePath)), modId, gamePath, t)
  {
    var path := Slashes(gamePath);
    var e := View(cache)[modId][path];
    assert e.lastModified == TruncateToSeconds(t);
    LookupInStore(View(cache), modId, path, e.(isUsed := true));
  }

  /** The converted output exists and the cache says it was made from the
      source as it is now. */
  predicate UpToDate(cache: Registry, env: Env, output: string, modId: string, gamePath: string, source: string)
    requires CacheRegistry.Valid(cache)
  {
    output in env.present && TryGetFileIfUpToDate(cache, modId, gamePath, env.lastWrite(source)).Some?
  }

  // ---------------------------------------------------------------------------
  // The converters
  // ---------------------------------------------------------------------------

  /** `ConvertToMsg`: a `.json` file is registered under its `.msg` path
      whatever happens. Its output in the temp directory serves it when that is
      up to date or the conversion succeeds; otherwise the source itself does.
      Either way the cache records the source as used. */
  function ConvertToMsg(cache: Registry, env: Env, source: string, gamePath: string, modId: string)
    : (r: (ModFile, Registry))
    requires CacheRegistry.Valid(cache)
    ensures CacheRegistry.Valid(r.1)
    ensures r.0.modId == modId && r.0.sourcePath == source
    ensures r.0.gamePath == MsgGamePath(gamePath)
    ensures var output := TempFilePath(env, MsgGamePath(gamePath), modId);
      r.0.targetPath == if UpToDate(cache, env, output, modId, gamePath, source) || env.converts(source)
                        then output else source
    ensures RecordsUsed(cache, r.1, modId, gamePath, env.lastWrite(source))
  {
    var msgGamePath := MsgGamePath(gamePath);
    var output := TempFilePath(env, msgGamePath, modId);
    var lastModified := env.lastWrite(source);
    if output in env.present && TryGetFileIfUpToDate(cache, modId, gamePath, lastModified).Some? then
      MarkUsedRecords(cache, modId, gamePath, lastModified);
      (ModFile(modId, source, msgGamePath, output), MarkUsed(cache, modId, Slashes(gamePath)))
    else
      AddUsedEntryRecords(cache, modId, gamePath, lastModified);
      var added := AddUsedEntry(cache, modId, gamePath, lastModified);
      if env.converts(source) then (ModFile(modId, source, msgGamePath, output), added)
      else (ModFile(modId, source, msgGamePath, source), added)
  }

  /** `ConvertToBxm`: an `.xml` file whose output is up to date or converts is
      registered under its `.bxm` path and served from the temp directory (the
      output keeps the original game path there); one that fails to convert
      keeps its own game path and serves itself. The cache records it as used
      in every case. */
  function ConvertToBxm(cache: Registry, env: Env, source: string, gamePath: string, modId: string)
    : (r: (ModFile, Registry))
    requires CacheRegistry.Valid(cache)
    ensures CacheRegistry.Valid(r.1)
    ensures r.0.modId == modId && r.0.sourcePath == source
    ensures var output := TempFilePath(env, gamePath, modId);
      if UpToDate(cache, env, output, modId, gamePath, source) || env.converts(source)
      then r.0.gamePath == BxmGamePath(gamePath) && r.0.targetPath == output
      else r.0.gamePath == gamePath && r.0.targetPath == source
    ensures RecordsUsed(cache, r.1, modId, gamePath, env.lastWrite(source))
  {
    var bxmGamePath := BxmGamePath(gamePath);
    var output := TempFilePath(env, gamePath, modId);
    var lastModified := env.lastWrite(source);
    if output in env.present && TryGetFileIfUpToDate(cache, modId, gamePath, lastModified).Some? then
      MarkUsedRecords(cache, modId, gamePath, lastModified);
      (ModFile(modId, source, bxmGamePath, output), MarkUsed(cache, modId, Slashes(gamePath)))
    else
      AddUsedEntryRecords(cache, modId, gamePath, lastModified);
      var added := AddUsedEntry(cache, modId, gamePath, lastModified);
      if env.converts(source) then (ModFile(modId, source, bxmGamePath, output), added)
      else (ModFile(modId, source, gamePath, source), added)
  }

  /** Whether a `.minfo` gets its magic rewritten: it parses and its magic is
      older than the threshold. */
  predicate NeedsUpgrade(env: Env, source: string) {
    env.minfo(source).Some? && env.minfo(source).value.magic < MInfoMagicThreshold
  }

  /** `UpgradeMInfoIfNeeded`: an outdated `.minfo` is rewritten into the temp
      directory with the new magic and its other fields untouched, served from
      there and recorded as used; any other `.minfo` (current, or unreadable)
      serves itself and the cache is left alone. The third component is the
      model info written, if any. */
  function UpgradeMInfoIfNeeded(cache: Registry, env: Env, source: string, gamePath: string, modId: string)
    : (r: (ModFile, Registry, Option<ModelInfo>))
    requires CacheRegistry.Valid(cache)
    ensures CacheRegistry.Valid(r.1)
    ensures r.0.modId == modId && r.0.sourcePath == source && r.0.gamePath == gamePath
    ensures r.2.Some? <==> NeedsUpgrade(env, source)
    ensures r.2.Some? ==> r.2.value.magic == UpgradedMagic && r.2.value.fields == env.minfo(source).value.fields
    ensures r.2.Some? ==> r.0.targetPath == TempFilePath(env, gamePath, modId)
    ensures r.2.Some? ==> RecordsUsed(cache, r.1, modId, gamePath, env.lastWrite(source))
    ensures r.2.None? ==> r.0.targetPath == source && r.1 == cache
  {
    match env.minfo(source)
    case Some(info) =>
      if info.magic < MInfoMagicThreshold then
        var output := TempFilePath(env, gamePath, modId);
        AddUsedEntryRecords(cache, modId, gamePath, env.lastWrite(source));
        (ModFile(modId, source, gamePath, output),
         AddUsedEntry(cache, modId, gamePath, env.lastWrite(source)),
         Some(info.(magic := UpgradedMagic)))
      else
        (ModFile(modId, source, gamePath, source), cache, None)
    case None =>
      (ModFile(modId, source, gamePath, source), cache, None)
  }

  // ---------------------------------------------------------------------------
  // ProcessFile
  // ---------------------------------------------------------------------------

  /** A `.msg` is skipped exactly when JSON conversion is on and a `.json`
      beside it exists: the `.json` has already produced it. */
  predicate SkipsMsg(cfg: Config, env: Env, source: string) {
    GetExtension(source) == ".msg" && cfg.autoConvertJsonToMsg && ChangeExtension(source, ".json") in env.present
  }

  /** The game path and serving file a registration may have, by extension. */
  predicate FollowsPathRules(cfg: Config, env: Env, source: string, gamePath: string, f: ModFile) {
    var ext := GetExtension(source);
    if ext == ".json" && cfg.autoConvertJsonToMsg then
      f.gamePath == MsgGamePath(gamePath)
    else if ext == ".xml" && cfg.autoConvertXmlToBxm then
      && (env.converts(source) ==> f.gamePath == BxmGamePath(gamePath) && f.targetPath == TempFilePath(env, gamePath, f.modId))
      && (f.gamePath == BxmGamePath(gamePath) || (f.gamePath == gamePath && f.targetPath == source))
    else if ext == ".minfo" && cfg.autoUpgradeMInfo then
      && f.gamePath == gamePath
      && f.targetPath == if NeedsUpgrade(env, source) then TempFilePath(env, gamePath, f.modId) else source
    else
      f.gamePath == gamePath && f.targetPath == source
  }

  /** `ProcessFile`: dispatch on the source's extension (`.minfo`, `.json` and
      `.xml` only when their switch is on), then redirect the game path to the
      serving file. A skipped `.msg` yields no registration, still redirects its
      own game path to itself, and leaves the cache alone. */
  function ProcessFile(cache: Registry, env: Env, cfg: Config, source: string, gamePath: string, modId: string)
    : (r: Processed)
    requires CacheRegistry.Valid(cache)
    ensures CacheRegistry.Valid(r.cache)
    ensures r.modFile.None? <==> SkipsMsg(cfg, env, source)
    ensures r.modFile.Some? ==> r.modFile.value.modId == modId && r.modFile.value.sourcePath == source
    ensures r.modFile.Some? ==> FollowsPathRules(cfg, env, source, gamePath, r.modFile.value)
    ensures r.modFile.Some? ==> r.redirect == RedirectFor(env, r.modFile.value.gamePath, r.modFile.value.targetPath)
    ensures r.modFile.None? ==> r.redirect == RedirectFor(env, gamePath, source) && r.cache == cache
    ensures !(GetExtension(source) == ".minfo" && cfg.autoUpgradeMInfo) && r.modFile.Some? ==>
              RecordsUsed(cache, r.cache, modId, gamePath, env.lastWrite(source))
    ensures GetExtension(source) == ".minfo" && cfg.autoUpgradeMInfo ==>
              if NeedsUpgrade(env, source) then RecordsUsed(cache, r.cache, modId, gamePath, env.lastWrite(source))
              else r.cache == cache
  {
    var ext := GetExtension(source);
    var (f, cache') :=
      if ext == ".minfo" && cfg.autoUpgradeMInfo then
        var u := UpgradeMInfoIfNeeded(cache, env, source, gamePath, modId);
        (Some(u.0), u.1)
      else if ext == ".json" && cfg.autoConvertJsonToMsg then
        var c := ConvertToMsg(cache, env, source, gamePath, modId);
        (Some(c.0), c.1)
      else if ext == ".xml" && cfg.autoConvertXmlToBxm then
        var c := ConvertToBxm(cache, env, source, gamePath, modId);
        (Some(c.0), c.1)
      else if ext == ".msg" && cfg.autoConvertJsonToMsg && ChangeExtension(source, ".json") in env.present then
        (None, cache)
      else
        (AddUsedEntryRecords(cache, modId, gamePath, env.lastWrite(source));
         (Some(ModFile(modId, source, gamePath, source)), AddUsedEntry(cache, modId, gamePath, env.lastWrite(source))));
    match f
    case Some(mf) => Processed(f, cache', RedirectFor(env, mf.gamePath, mf.targetPath))
    case None => Processed(None, cache', RedirectFor(env, gamePath, source))
  }

  /** An upgraded `.minfo` is a fixed point: when the copy written to the temp
      directory parses to the upgraded model info (the source's, with the new
      magic), processing that copy under the same game path serves it as it
      is, redirects the game path to it and leaves any cache alone. */
  lemma UpgradedCopyServesItself(cache: Registry, later: Registry, env: Env, cfg: Config,
                                 source: string, gamePath: string, modId: string)
    requires CacheRegistry.Valid(cache) && CacheRegistry.Valid(later)
    requires cfg.autoUpgradeMInfo && NeedsUpgrade(env, source) && GetExtension(gamePath) == ".minfo"
    requires env.minfo(TempFilePath(env, gamePath, modId)) == Some(env.minfo(source).value.(magic := UpgradedMagic))
    ensures var out := UpgradeMInfoIfNeeded(cache, env, source, gamePath, modId).0.targetPath;
      ProcessFile(later, env, cfg, out, gamePath, modId) ==
        Processed(Some(ModFile(modId, out, gamePath, out)), later, RedirectFor(env, gamePath, out))
  {
    var out := TempFilePath(env, gamePath, modId);
    CombineKeepsExtension(Combine(env.tempPath, modId), gamePath);
    assert GetExtension(out) == ".minfo";
  }
}

=== FILE: path_hash.dfy ===
/** Path keys (Utils.cs): the normalised spelling of a game path and the 64-bit
    key derived from it. The xxHash64 digest itself is left abstract. */
module PathHash {
  import Text

  type byte = x: int | 0 <= x < 256
  type uint64 = x: int | 0 <= x < 0x1_0000_0000_0000_0000

  /** An xxHash64 digest: always eight bytes. */
  type Digest = s: seq<byte> | |s| == 8 witness [0, 0, 0, 0, 0, 0, 0, 0]

  /** `XxHash64.Hash(bytes, seed: 0)`, supplied by the caller. */
  type XxHash64 = seq<byte> -> Digest

  predicate IsUpperAscii(c: char) {
    'A' <= c <= 'Z'
  }

  /** `Char.ToLower` restricted to the ASCII letters. */
  function ToLowerAscii(c: char): char {
    if IsUpperAscii(c) then (c as int + 32) as char else c
  }

  /** `Utils.NormalizePath`: backslashes become slashes, then the string is lower-cased. */
  function NormalizePath(path: string): (r: string)
    ensures |r| == |path|
    ensures forall i :: 0 <= i < |r| ==> r[i] != '\\' && !IsUpperAscii(r[i])
    ensures forall i :: 0 <= i < |r| ==> (path[i] == '\\' ==> r[i] == '/')
  {
    var s := Text.ReplaceChar(path, '\\', '/');
    seq(|s|, i requires 0 <= i < |s| => ToLowerAscii(s[i]))
  }

  /** Two characters name the same thing in a game path: both separators, or the
      same letter up to ASCII case. */
  predicate SamePathChar(a: char, b: char) {
    var sa := a == '\\' || a == '/';
    var sb := b == '\\' || b == '/';
    (sa && sb)
    || a == b
    || (IsUpperAscii(a) && b as int == a as int + 32)
    || (IsUpperAscii(b) && a as int == b as int + 32)
  }

  /** Two paths that differ only in letter case and separator style. */
  predicate SamePath(p: string, q: string) {
    |p| == |q| && forall i :: 0 <= i < |p| ==> SamePathChar(p[i], q[i])
  }

  /** Normalisation identifies exactly the paths that differ only in case and
      separator style. */
  lemma NormalizePathSameIff(p: string, q: string)
    ensures NormalizePath(p) == NormalizePath(q) <==> SamePath(p, q)
  {
    var np, nq := NormalizePath(p), NormalizePath(q);
    if np == nq {
      forall i | 0 <= i < |p| ensures SamePathChar(p[i], q[i]) {
        assert np[i] == nq[i];
      }
    }
    if SamePath(p, q) {
      forall i | 0 <= i < |p| ensures np[i] == nq[i] {
        assert SamePathChar(p[i], q[i]);
      }
    }
  }

  /** Normalising twice changes nothing. */
  lemma NormalizePathIdempotent(p: string)
    ensures NormalizePath(NormalizePath(p)) == NormalizePath(p)
  {
  }

  /** `Encoding.ASCII.GetBytes`: one byte per character, `?` for non-ASCII. */
  function AsciiBytes(s: string): (b: seq<byte>)
    ensures |b| == |s|
  {
    seq(|s|, i requires 0 <= i < |s| => if s[i] as int < 128 then s[i] as int else '?' as int)
  }

  // ---------------------------------------------------------------------------
  // Big-endian integers (BinaryPrimitives)
  // ---------------------------------------------------------------------------

  function Pow256(n: nat): (r: nat)
    ensures r >= 1
  {
    if n == 0 then 1 else 256 * Pow256(n - 1)
  }

  /** The unsigned value of `s` read most significant byte first. */
  function BigEndianValue(s: seq<byte>): nat {
    if |s| == 0 then 0 else BigEndianValue(s[..|s| - 1]) * 256 + s[|s| - 1]
  }

  /** The `n`-byte big-endian encoding of `x`. */
  function BigEndianBytes(x: nat, n: nat): (s: seq<byte>)
    ensures |s| == n
  {
    if n == 0 then [] else BigEndianBytes(x / 256, n - 1) + [x % 256]
  }

  lemma {:induction false} BigEndianValueBound(s: seq<byte>)
    ensures BigEndianValue(s) < Pow256(|s|)
    decreases |s|
  {
    if |s| > 0 {
      BigEndianValueBound(s[..|s| - 1]);
      var v := BigEndianValue(s[..|s| - 1]);
      assert v <= Pow256(|s| - 1) - 1;
      assert v * 256 <= Pow256(|s| - 1) * 256 - 256;
    }
  }

  /** Decoding an encoding gives the number back. */
  lemma {:induction false} BigEndianRoundTrip(x: nat, n: nat)
    requires x < Pow256(n)
    ensures BigEndianValue(BigEndianBytes(x, n)) == x
    decreases n
  {
    if n > 0 {
      var s := BigEndianBytes(x, n);
      assert s[..n - 1] == BigEndianBytes(x / 256, n - 1);
      assert x / 256 < Pow256(n - 1);
      BigEndianRoundTrip(x / 256, n - 1);
    }
  }

  /** Encoding a decoded value gives the bytes back. */
  lemma {:induction false} BigEndianBytesOfValue(s: seq<byte>)
    ensures BigEndianBytes(BigEndianValue(s), |s|) == s
    decreases |s|
  {
    if |s| > 0 {
      var init := s[..|s| - 1];
      var v := BigEndianValue(s);
      assert v / 256 == BigEndianValue(init);
      assert v % 256 == s[|s| - 1];
      BigEndianBytesOfValue(init);
      assert init + [s[|s| - 1]] == s;
    }
  }

  /** The leading byte of a big-endian sequence carries the top weight. */
  lemma {:induction false} BigEndianValueHead(s: seq<byte>)
    requires |s| > 0
    ensures BigEndianValue(s) == s[0] * Pow256(|s| - 1) + BigEndianValue(s[1..])
    decreases |s|
  {
    if |s| > 1 {
      var init := s[..|s| - 1];
      BigEndianValueHead(init);
      assert init[1..] == s[1..][..|s| - 2];
      assert init[0] == s[0];
      var a, q, b, c := s[0] as nat, Pow256(|s| - 2), BigEndianValue(init[1..]), s[|s| - 1] as nat;
      assert BigEndianValue(s[1..]) == b * 256 + c;
      assert Pow256(|s| - 1) == 256 * q;
      Regroup(a, q, b, c);
    } else {
      assert s[..0] == [];
    }
  }

  lemma Regroup(a: nat, q: nat, b: nat, c: nat)
    ensures (a * q + b) * 256 + c == a * (256 * q) + (b * 256 + c)
  {
  }

  /** `BinaryPrimitives.ReadUInt64BigEndian` on an eight-byte digest: byte 0 is
      the most significant, and distinct digests give distinct keys. */
  function ReadUInt64BigEndian(d: Digest): (r: uint64)
    ensures r / 0x100_0000_0000_0000 == d[0]
    ensures BigEndianBytes(r, 8) == d
  {
    BigEndianValueBound(d);
    BigEndianValueHead(d);
    BigEndianValueBound(d[1..]);
    BigEndianBytesOfValue(d);
    BigEndianValue(d)
  }

  /** Two digests decode to the same key only if they are the same digest. */
  lemma ReadUInt64BigEndianInjective(a: Digest, b: Digest)
    requires ReadUInt64BigEndian(a) == ReadUInt64BigEndian(b)
    ensures a == b
  {
  }

  /** `Utils.XXHash64Path`: the key of a game path, computed from its normalised
      spelling only. */
  function XXHash64Path(xx: XxHash64, path: string): uint64 {
    ReadUInt64BigEndian(xx(AsciiBytes(NormalizePath(path))))
  }

  /** Paths that differ only in case or separator style share a key. */
  lemma {:induction false} XXHash64PathIgnoresCaseAndSeparators(xx: XxHash64, p: string, q: string)
    requires SamePath(p, q)
    ensures XXHash64Path(xx, p) == XXHash64Path(xx, q)
  {
    NormalizePathSameIff(p, q);
  }

  /** The key is a function of the normalised path. */
  lemma XXHash64PathOfNormalized(xx: XxHash64, p: string)
    ensures XXHash64Path(xx, NormalizePath(p)) == XXHash64Path(xx, p)
  {
    NormalizePathIdempotent(p);
  }
}

=== FILE: paths.dfy ===
/** The `System.IO.Path` operations the loader uses, with Windows separator rules. */
module Paths {
  import opened Wrappers

  /** `PathInternal.IsDirectorySeparator` on Windows. */
  predicate IsSeparator(c: char) {
    c == '\\' || c == '/'
  }

  /** Position of the dot that starts the extension: the last `.` that is not
      followed by a directory separator, if any. */
  function LastDot(path: string): (r: Option<nat>)
    ensures r.Some? ==> r.value < |path| && path[r.value] == '.'
    ensures r.Some? ==> forall j :: r.value < j < |path| ==> path[j] != '.' && !IsSeparator(path[j])
    ensures r.None? ==> forall j :: 0 <= j < |path| && path[j] == '.' ==>
                          exists k :: j < k < |path| && IsSeparator(path[k])
    decreases |path|
  {
    if |path| == 0 then None
    else
      var c := path[|path| - 1];
      if c == '.' then Some(|path| - 1)
      else if IsSeparator(c) then None
      else LastDot(path[..|path| - 1])
  }

  /** `Path.GetExtension`: the suffix from the extension dot, or "" when there is
      no dot in the file name or the dot is the last character. */
  function GetExtension(path: string): (ext: string)
    ensures ext == "" || (ext[0] == '.' && 2 <= |ext| <= |path| && path[|path| - |ext|..] == ext)
    ensures ext == "" || '.' !in ext[1..]
    ensures forall i :: 0 <= i < |ext| ==> !IsSeparator(ext[i])
  {
    match LastDot(path)
    case Some(i) => if i == |path| - 1 then "" else path[i..]
    case None => ""
  }

  /** `Path.ChangeExtension(path, ext)` for a non-null `ext`. */
  function ChangeExtension(path: string, ext: string): (r: string)
  {
    if |path| == 0 then ""
    else
      var stem := match LastDot(path) case Some(i) => path[..i] case None => path;
      if |ext| == 0 || ext[0] != '.' then stem + "." + ext else stem + ext
  }

  /** `Path.IsPathRooted` on Windows: a leading separator or a drive letter. */
  predicate IsRooted(p: string) {
    (|p| >= 1 && IsSeparator(p[0]))
    || (|p| >= 2 && p[1] == ':' && (('a' <= p[0] <= 'z') || ('A' <= p[0] <= 'Z')))
  }

  /** `Path.Combine(a, b)` on Windows: `b` when it is rooted, otherwise the two
      joined by one separator unless one is already there. */
  function Combine(a: string, b: string): (r: string)
    ensures |b| == 0 ==> r == a
    ensures |b| > 0 && IsRooted(b) ==> r == b
    ensures |a| > 0 && |b| > 0 && !IsRooted(b) ==>
              |a| + |b| <= |r| && r[..|a|] == a && r[|r| - |b|..] == b && IsSeparator(r[|r| - |b| - 1])
  {
    if |b| == 0 then a
    else if IsRooted(b) || |a| == 0 then b
    else if IsSeparator(a[|a| - 1]) then a + b
    else a + "\\" + b
  }

  /** A file name with its extension changed keeps the directory part and the
      stem and ends in the new extension. */
  lemma ChangeExtensionShape(path: string, ext: string)
    requires |path| > 0 && |ext| >= 2 && ext[0] == '.'
    requires '.' !in ext[1..] && forall i :: 0 <= i < |ext| ==> !IsSeparator(ext[i])
    ensures GetExtension(ChangeExtension(path, ext)) == ext
  {
    var r := ChangeExtension(path, ext);
    var stem := match LastDot(path) case Some(i) => path[..i] case None => path;
    assert r == stem + ext;
    var d := |stem|;
    assert r[d] == '.';
    forall j | d < j < |r| ensures r[j] != '.' && !IsSeparator(r[j]) {
      assert r[j] == ext[j - d];
    }
    assert LastDot(r) == Some(d) by { LastDotAt(r, d); }
    assert r[d..] == ext;
  }

  /** The extension dot is the last dot when nothing after it is a dot or a separator. */
  lemma {:induction false} LastDotAt(p: string, d: nat)
    requires d < |p| && p[d] == '.'
    requires forall j :: d < j < |p| ==> p[j] != '.' && !IsSeparator(p[j])
    ensures LastDot(p) == Some(d)
    decreases |p|
  {
    if d < |p| - 1 {
      var q := p[..|p| - 1];
      LastDotAt(q, d);
    }
  }

  /** Swapping one extension for another keeps everything before the dot. */
  lemma SwapExtension(stem: string, from: string, to: string)
    requires |from| >= 1 && from[0] == '.'
    requires forall j :: 1 <= j < |from| ==> from[j] != '.' && !IsSeparator(from[j])
    requires |to| >= 1 && to[0] == '.'
    ensures ChangeExtension(stem + from, to) == stem + to
  {
    var p := stem + from;
    forall j | |stem| < j < |p| ensures p[j] != '.' && !IsSeparator(p[j]) {
      assert p[j] == from[j - |stem|];
    }
    LastDotAt(p, |stem|);
    assert p[..|stem|] == stem;
  }

  /** A prefix does not change an extension: the extension dot of `y` is still
      the last dot of `a + y`. */
  lemma ExtensionOfSuffix(a: string, y: string)
    requires GetExtension(y) != ""
    ensures GetExtension(a + y) == GetExtension(y)
  {
    var ext := GetExtension(y);
    var i := |y| - |ext|;
    var p, d := a + y, |a| + i;
    assert y[i..] == ext;
    forall j | d < j < |p| ensures p[j] != '.' && !IsSeparator(p[j]) {
      assert p[j] == ext[j - d];
      assert ext[j - d] in ext[1..];
    }
    LastDotAt(p, d);
    assert p[d..] == y[i..];
  }

  /** `Path.Combine` keeps the extension of its second argument. */
  lemma CombineKeepsExtension(a: string, b: string)
    requires GetExtension(b) != ""
    ensures GetExtension(Combine(a, b)) == GetExtension(b)
  {
    if !IsRooted(b) && |a| > 0 {
      if IsSeparator(a[|a| - 1]) {
        ExtensionOfSuffix(a, b);
      } else {
        ExtensionOfSuffix(a + "\\", b);
      }
    }
  }
}

=== FILE: sorted_seq.dfy ===
/** Sorted key lists: `List<T>.BinarySearch` and the positional edits the index
    applies to its parallel arrays. */
module SortedSeq {

  predicate Sorted(s: seq<int>) {
    forall i, j :: 0 <= i < j < |s| ==> s[i] <= s[j]
  }

  /** Ascending with no duplicates. */
  predicate StrictlySorted(s: seq<int>) {
    forall i, j :: 0 <= i < j < |s| ==> s[i] < s[j]
  }

  /** `p` is where `x` belongs in `s`: everything before is smaller, everything
      from `p` on is larger. */
  predicate IsInsertionPoint(s: seq<int>, x: int, p: int) {
    0 <= p <= |s|
    && (forall i :: 0 <= i < p ==> s[i] < x)
    && (forall i :: p <= i < |s| ==> s[i] > x)
  }

  /** The loop of `ArraySortHelper.InternalBinarySearch` over `s[lo..hi]`
      (`hi` inclusive), written as a recursion. */
  function Search(s: seq<int>, x: int, lo: int, hi: int): (r: int)
    requires Sorted(s)
    requires 0 <= lo <= hi + 1 <= |s|
    requires forall i :: 0 <= i < lo ==> s[i] < x
    requires forall i :: hi < i < |s| ==> s[i] > x
    ensures 0 <= r ==> r < |s| && s[r] == x
    ensures r < 0 ==> IsInsertionPoint(s, x, -r - 1)
    decreases hi - lo
  {
    if lo > hi then -lo - 1
    else
      var mid := lo + (hi - lo) / 2;
      if s[mid] == x then mid
      else if s[mid] < x then Search(s, x, mid + 1, hi)
      else Search(s, x, lo, mid - 1)
  }

  /** `List<T>.BinarySearch(x)`: the index of `x` when present, otherwise the
      bitwise complement `~p` (that is `-p - 1`) of its insertion point `p`. */
  function BinarySearch(s: seq<int>, x: int): (r: int)
    requires Sorted(s)
    ensures r >= 0 <==> x in s
    ensures 0 <= r ==> r < |s| && s[r] == x
    ensures r < 0 ==> IsInsertionPoint(s, x, -r - 1)
  {
    Search(s, x, 0, |s| - 1)
  }

  function InsertAt<T>(s: seq<T>, i: nat, x: T): (r: seq<T>)
    requires i <= |s|
    ensures |r| == |s| + 1 && r[i] == x
    ensures forall j :: 0 <= j < i ==> r[j] == s[j]
    ensures forall j :: i < j < |r| ==> r[j] == s[j - 1]
  {
    s[..i] + [x] + s[i..]
  }

  /** `List<T>.RemoveAt(i)`. */
  function RemoveAt<T>(s: seq<T>, i: nat): (r: seq<T>)
    requires i < |s|
    ensures |r| == |s| - 1
    ensures forall j :: 0 <= j < i ==> r[j] == s[j]
    ensures forall j :: i <= j < |r| ==> r[j] == s[j + 1]
  {
    s[..i] + s[i + 1..]
  }

  /** The sorted-insert extension: `x` goes to its insertion point and that
      position is returned. */
  function AddSorted(s: seq<int>, x: int): (r: (seq<int>, nat))
    requires StrictlySorted(s) && x !in s
    ensures r.1 <= |s| && IsInsertionPoint(s, x, r.1)
    ensures r.0 == InsertAt(s, r.1, x)
    ensures StrictlySorted(r.0)
    ensures forall y :: y in r.0 <==> y in s || y == x
  {
    var p := -BinarySearch(s, x) - 1;
    InsertAtInsertionPoint(s, x, p);
    (InsertAt(s, p, x), p)
  }

  /** Inserting at the insertion point keeps a list strictly sorted and adds
      exactly the new element. */
  lemma InsertAtInsertionPoint(s: seq<int>, x: int, p: nat)
    requires StrictlySorted(s) && IsInsertionPoint(s, x, p)
    ensures StrictlySorted(InsertAt(s, p, x))
    ensures forall y :: y in InsertAt(s, p, x) <==> y in s || y == x
  {
    var t := InsertAt(s, p, x);
    forall i, j | 0 <= i < j < |t| ensures t[i] < t[j] {
      if j < p {
      } else if j == p {
      } else if i < p {
      } else if i == p {
        assert t[j] == s[j - 1];
      } else {
      }
    }
    forall y | y in s ensures y in t {
      var k :| 0 <= k < |s| && s[k] == y;
      if k < p { assert t[k] == y; } else { assert t[k + 1] == y; }
    }
  }

  /** Removing an element keeps a list strictly sorted and drops exactly that element. */
  lemma RemoveAtStrictlySorted(s: seq<int>, i: nat)
    requires StrictlySorted(s) && i < |s|
    ensures StrictlySorted(RemoveAt(s, i))
    ensures forall y :: y in RemoveAt(s, i) <==> y in s && y != s[i]
  {
    var r := RemoveAt(s, i);
    forall y | y in s && y != s[i] ensures y in r {
      var k :| 0 <= k < |s| && s[k] == y;
      if k < i { assert r[k] == y; } else { assert r[k - 1] == y; }
    }
  }

  /** In a strictly sorted list a value occurs at one position at most. */
  lemma StrictlySortedUnique(s: seq<int>, i: nat, j: nat)
    requires StrictlySorted(s) && i < |s| && j < |s| && s[i] == s[j]
    ensures i == j
  {
  }

  /** The only position holding `s[p]` in a strictly sorted list is `p`. */
  lemma OnlyAt(s: seq<int>, p: nat)
    requires StrictlySorted(s) && p < |s|
    ensures forall i :: 0 <= i < |s| && s[i] == s[p] ==> i == p
  {
  }
}

=== FILE: text.dfy ===
/** The handful of .NET string operations the loader relies on, over `seq<char>`. */
module Text {

  /** `String.Replace(char, char)`: every occurrence of `from` becomes `to`. */
  function ReplaceChar(s: string, from: char, to: char): (r: string)
    ensures |r| == |s|
    ensures from != to ==> from !in r
  {
    seq(|s|, i requires 0 <= i < |s| => if s[i] == from then to else s[i])
  }

  /** `String.Replace(string, string)` (ordinal): a left-to-right scan replacing
      non-overlapping occurrences of `pat` by `rep`. */
  function ReplaceAll(s: string, pat: string, rep: string): string
    requires |pat| > 0
    decreases |s|
  {
    if |s| < |pat| then s
    else if s[..|pat|] == pat then rep + ReplaceAll(s[|pat|..], pat, rep)
    else [s[0]] + ReplaceAll(s[1..], pat, rep)
  }

  /** Replacing one character distributes over concatenation. */
  lemma ReplaceCharAppend(a: string, b: string, from: char, to: char)
    ensures ReplaceChar(a + b, from, to) == ReplaceChar(a, from, to) + ReplaceChar(b, from, to)
  {
  }

  /** A prefix in which no occurrence of the pattern can start is kept as it is. */
  lemma {:induction false} ReplaceAllPrefix(a: string, b: string, pat: string, rep: string)
    requires |pat| > 0 && pat[0] !in a
    ensures ReplaceAll(a + b, pat, rep) == a + ReplaceAll(b, pat, rep)
    decreases |a|
  {
    if |a| > 0 {
      var s := a + b;
      assert s[0] == a[0] != pat[0];
      assert s[1..] == a[1..] + b;
      if |s| >= |pat| {
        assert s[..|pat|] != pat by { assert s[..|pat|][0] == s[0]; }
        ReplaceAllPrefix(a[1..], b, pat, rep);
        assert [a[0]] + a[1..] == a;
        var r := ReplaceAll(b, pat, rep);
        assert ReplaceAll(s, pat, rep) == [a[0]] + ReplaceAll(s[1..], pat, rep);
        assert [a[0]] + (a[1..] + r) == ([a[0]] + a[1..]) + r;
      } else {
        assert ReplaceAll(b, pat, rep) == b;
      }
    } else {
      assert a + b == b;
    }
  }

  /** `String.StartsWith(prefix)`. */
  predicate StartsWith(s: string, prefix: string) {
    |prefix| <= |s| && s[..|prefix|] == prefix
  }

  /** `Char.IsWhiteSpace`: the Unicode space separators plus the control
      characters U+0009..U+000D, U+0085, and the line/paragraph separators. */
  predicate IsWhiteSpace(c: char) {
    c == ' ' || ('\t' <= c <= '\r') || c == '\U{0085}' || c == '\U{00A0}' || c == '\U{1680}'
    || ('\U{2000}' <= c <= '\U{200A}') || c == '\U{2028}' || c == '\U{2029}' || c == '\U{202F}'
    || c == '\U{205F}' || c == '\U{3000}'
  }

  /** `String.IsNullOrWhiteSpace` for a non-null string. */
  predicate IsBlank(s: string) {
    forall i :: 0 <= i < |s| ==> IsWhiteSpace(s[i])
  }

  // ---------------------------------------------------------------------------
  // String.Split(char) and its inverse String.Join(char, parts)
  // ---------------------------------------------------------------------------

  /** `String.Split(sep)`: the maximal runs between separators, empty runs kept. */
  function Split(s: string, sep: char): (parts: seq<string>)
    ensures |parts| >= 1
    ensures forall i :: 0 <= i < |parts| ==> sep !in parts[i]
    ensures Join(parts, sep) == s
    decreases |s|
  {
    if |s| == 0 then [""]
    else
      var rest := Split(s[1..], sep);
      if s[0] == sep then [""] + rest
      else [[s[0]] + rest[0]] + rest[1..]
  }

  /** `String.Join(sep, parts)`. */
  function Join(parts: seq<string>, sep: char): string
    requires |parts| >= 1
  {
    if |parts| == 1 then parts[0] else parts[0] + [sep] + Join(parts[1..], sep)
  }

  /** A string without the separator is one field. */
  lemma {:induction false} SplitNoSep(a: string, sep: char)
    requires sep !in a
    ensures Split(a, sep) == [a]
    decreases |a|
  {
    if |a| > 0 {
      SplitNoSep(a[1..], sep);
      assert [a[0]] + a[1..] == a;
    }
  }

  /** Splitting at the first separator peels off the field before it. */
  lemma {:induction false} SplitFirst(a: string, sep: char, b: string)
    requires sep !in a
    ensures Split(a + [sep] + b, sep) == [a] + Split(b, sep)
    decreases |a|
  {
    var s := a + [sep] + b;
    if |a| == 0 {
      assert s[1..] == b;
    } else {
      assert s[1..] == a[1..] + [sep] + b;
      SplitFirst(a[1..], sep, b);
      assert [a[0]] + a[1..] == a;
    }
  }

  /** Split undoes Join when no field holds the separator. */
  lemma {:induction false} SplitJoin(parts: seq<string>, sep: char)
    requires |parts| >= 1
    requires forall i :: 0 <= i < |parts| ==> sep !in parts[i]
    ensures Split(Join(parts, sep), sep) == parts
    decreases |parts|
  {
    if |parts| == 1 {
      SplitNoSep(parts[0], sep);
    } else {
      SplitJoin(parts[1..], sep);
      SplitFirst(parts[0], sep, Join(parts[1..], sep));
      assert [parts[0]] + parts[1..] == parts;
    }
  }

  // ---------------------------------------------------------------------------
  // Line framing: StreamWriter.WriteLine and StreamReader.ReadLine
  // ---------------------------------------------------------------------------

  predicate IsLineBreak(c: char) {
    c == '\n' || c == '\r'
  }

  predicate SingleLine(s: string) {
    forall i :: 0 <= i < |s| ==> !IsLineBreak(s[i])
  }

  /** `StreamReader.ReadLine` on a non-empty remainder: the characters up to the
      first `\n`, `\r` or `\r\n`, and what follows that terminator. */
  function ReadLine(t: string): (r: (string, string))
    requires |t| > 0
    ensures |r.1| < |t|
    ensures SingleLine(r.0)
    decreases |t|
  {
    if t[0] == '\n' then ("", t[1..])
    else if t[0] == '\r' then (if |t| > 1 && t[1] == '\n' then ("", t[2..]) else ("", t[1..]))
    else if |t| == 1 then (t, "")
    else
      var (l, rest) := ReadLine(t[1..]);
      ([t[0]] + l, rest)
  }

  /** The lines a `while (!EndOfStream) ReadLine()` loop yields. */
  function SplitLines(t: string): seq<string>
    decreases |t|
  {
    if |t| == 0 then []
    else
      var (l, rest) := ReadLine(t);
      [l] + SplitLines(rest)
  }

  /** The text a sequence of `WriteLine` calls produces (Windows line ends). */
  function JoinLines(lines: seq<string>): string {
    if |lines| == 0 then "" else lines[0] + "\r\n" + JoinLines(lines[1..])
  }

  lemma {:induction false} ReadLineOfWritten(l: string, rest: string)
    requires SingleLine(l)
    ensures ReadLine(l + "\r\n" + rest) == (l, rest)
    decreases |l|
  {
    var t := l + "\r\n" + rest;
    if |l| == 0 {
      assert t[2..] == rest;
    } else {
      assert t[1..] == l[1..] + "\r\n" + rest;
      ReadLineOfWritten(l[1..], rest);
      assert [l[0]] + l[1..] == l;
    }
  }

  /** Reading back what was written line by line gives the same lines. */
  lemma {:induction false} SplitJoinLines(lines: seq<string>)
    requires forall i :: 0 <= i < |lines| ==> SingleLine(lines[i])
    ensures SplitLines(JoinLines(lines)) == lines
    decreases |lines|
  {
    if |lines| > 0 {
      ReadLineOfWritten(lines[0], JoinLines(lines[1..]));
      SplitJoinLines(lines[1..]);
      assert [lines[0]] + lines[1..] == lines;
    }
  }
}

=== FILE: wrappers.dfy ===
/** Failure-compatible wrappers shared by every module of the model. */
module Wrappers {

  /** A value that may be absent (a C# null reference or a "Try" miss). */
  datatype Option<+T> = None | Some(value: T)

  /** The outcome of an operation that throws in the original program. */
  datatype Result<+T, +E> = Ok(value: T) | Err(error: E) {
    predicate IsFailure() {
      Err?
    }

    function PropagateFailure<U>(): Result<U, E>
      requires Err?
    {
      Err(error)
    }

    function Extract(): T
      requires Ok?
    {
      value
    }
  }
}
